=== FILE: README.md ===
# Temporal playback engine, modelled in Dafny

This project models the playback engine of `script.js`, the browser app that
replays construction works (`obras`) and their payments on a map, one month
at a time. The model covers these parts:

- **Parsers.** `parseDate` reads record dates (`YYYY-MM-DD` or `DD/MM/YYYY`), `parseExecDate` reads payment dates (`DD/MM/YYYY HH:mm`), and `parseEuroAmount` reads Spanish-formatted amounts (`123.456,78`). Modules: `Dates`, `Amounts`.
- **Date constructor.** The JavaScript `Date` constructor is modelled concretely on a Gregorian calendar of month indices (`year * 12 + month`). It includes the two-digit-year rule, month and day roll-over and the ±8.64e15 ms range. Module: `Calendar`.
- **Number conversions.** `parseInt`, the Date constructor's string-to-number conversion and `parseFloat` are modelled on their decimal forms. Module: `Numbers`.
- **String helpers.** `split`, `trim`, `replace` and `indexOf` are modelled as exact string operations. Module: `Text`.
- **Ingestion in `initApp`.** Each feature gets a timestamp, features with a NaN time are dropped, features without an id get `gen_<n>` ids, and the rest are sorted stably by time. Modules: `Ingest`, `Sorting`.
- **Execution file loop.** Rows are trimmed, blank or dropped rows are skipped, and the kept payments are sorted by date. Module: `Exec`.
- **Month steps.** `generateMonthlySteps` runs from June 2017 to the first of the month after the latest record. Module: `Timeline`.
- **Cumulative budget.** The per-step budget is one linear merge of the ordered payments into the ordered steps. `updateBudgetChart` shows a slice of it and a KPI. Module: `Cumulative`.
- **`updateMap`.** The visibility filter and the active-marker diff, gated by `hasInteracted`. Modules: `Visibility`, `Markers`.
- **Marker tiers.** `createMarker` picks a size tier from the amount. Module: `Markers`.
- **Holder counts.** `updateChart` counts the visible records per holder (`titular`). Module: `Chart`.
- **Playback controller.** The slider handler, `togglePlay` and the interval tick act on an explicit state: step index, playing, interacted and active markers. `initApp` puts all the pieces together. Module: `Playback`.

Instants are integer milliseconds. Local calendar time is treated as if it had no offset and no daylight saving. Amounts are exact `real` decimals. NaN is `None` in an `Option`.

Five behaviours of the code that a reader might not expect; the model follows the code:

- **Number of steps.** There are *two* more steps than whole months between the first and the latest month, not one. This is because the loop's end bound is the first of the month after the latest record's month.
- **A payment on the 15th.** It is first counted at the *next* month's step, because every step is at midnight of a first day. So the totals for payments of 100 on 15 June and 50 on 15 July, over the steps of June, July and August, are `[0, 100, 150]`.
- **Early and late payments.** A payment dated before the first step is added at the first step. Payments after the last step are never added. So a payment of 100 on 15 May, over steps starting on 1 June, already counts in the first total, `[100, …]`.
- **The epoch.** An execution row whose date is the epoch itself has a time of 0, which is falsy, so the row is dropped.
- **A blank holder.** A holder made only of white space is still counted, under the upper-cased empty text.

## Model

| member | source | states |
|---|---|---|
| Dates.ParseDate | script.js:138-154 | `null` exactly for an absent or empty string; a string containing `-` with three dashed fields is read as (year, month - 1, day) with `parseInt`; otherwise three slashed fields are read as (third, second - 1, first) with number conversion; anything else goes to the engine's own parser |
| Dates.ParseIsoDigits | script.js:142-147 | every `YYYY-MM-DD` written with digit runs is the local date of that year, month - 1 and day |
| Dates.ParseDmyDigits | script.js:150-153 | every `DD/MM/YYYY` written with digit runs is the local date of that year, month - 1 and day |
| Dates.MonthAndDayRollOver | script.js:146 | out-of-range components are not rejected: `y-13-40` is 9 February of year y + 1 |
| Dates.TwoDigitYearField | script.js:153 | a two-digit year field in `DD/MM/YY` means a year of the 1900s |
| Dates.NonNumericYearIsNaN | script.js:142-146 | three dashed fields whose first is not a number give a Date whose time is NaN, not `null` |
| Dates.ParseExecDate | script.js:676-682 | `null` unless the input is non-empty and its text before the first space has exactly three `/` fields; otherwise the local date of those fields |
| Dates.ParseExecDigits | script.js:676-682 | `DD/MM/YYYY` followed by a space and any time of day is read from the date part alone |
| Calendar.MonthOf | script.js:159-161 | every instant lies in exactly one month: between that month's first midnight and the next month's |
| Calendar.MonthOfMonthStart | script.js:159-161 | the first midnight of month k lies in month k, so month starts and month indices convert both ways |
| Calendar.LocalDateRollOver | script.js:146 | the Date constructor rolls month 12 into January of the next year and a day past the month's length into the next month |
| Calendar.TwoDigitYear | script.js:153 | the Date constructor reads a year from 0 to 99 as 1900 plus that year |
| Numbers.ParseIntOfDigits | script.js:146 | `parseInt` of a digit run followed by a non-digit is the value of the digit run, unless the run is `0` and the next character `x`, which starts a hexadecimal number |
| Numbers.ParseIntOfRendering | script.js:146 | `parseInt` reads back the decimal rendering of any natural number, whatever non-digit follows it (except `x` after `0`) |
| Numbers.ToNumberOfDigits | script.js:153 | string-to-number conversion of a digit run is its value |
| Numbers.ParseFloatOfDecimalPrefix | script.js:689 | `parseFloat` of `a.b` followed by a character that is neither a digit nor an exponent `e` is the exact decimal `a.b` |
| Text.SplitCount | script.js:143 | a split has one more piece than the string has separators |
| Text.TrimAllSpace | script.js:563 | trimming gives the empty text exactly when every character is white space |
| Text.SplitJoin | script.js:143 | splitting a join of separator-free pieces gives back those pieces |
| Text.JoinSplit | script.js:143 | joining the pieces of a split with the separator gives back the string |
| Amounts.CleanAmountCounts | script.js:688 | cleaning removes every `.`, turns only the first `,` into the single `.`, and keeps every other character |
| Amounts.CleanAmountFirstComma | script.js:688 | with the dots removed, cleaning changes nothing when no comma is left, and otherwise turns exactly the first comma into `.`, keeping everything before and after it in place |
| Amounts.ParseEuroAmount | script.js:685-690 | an absent or empty amount is 0 |
| Amounts.EuroRoundTrip | script.js:684-690 | any amount written in the Spanish style, with `.` grouping thousands and `,` before two cents digits, parses back to its exact value (`123.456,78` is 123456.78) |
| Amounts.GroupedUnits | script.js:688-689 | whole amounts with thousands groups and no comma parse to their value |
| Amounts.SecondCommaEndsNumber | script.js:688-689 | only the first comma becomes a decimal point, so a second comma ends the number |
| Exec.ParseRow | script.js:727-733 | a kept row is dated at the non-zero time its date field parses to and carries the number its amount field parses to |
| Exec.RowDropped | script.js:729-733 | a row whose date field is `null`, an invalid Date or the epoch, or whose amount is NaN, is dropped |
| Exec.RowOfFields | script.js:726-733 | a row `date;amount` whose date parses to a non-zero time and whose amount parses to a number is kept as the payment at that time and amount |
| Exec.RowOfRendering | script.js:727-733 | a row `DD/MM/YYYY time;amount` with a non-zero date is kept as the payment at that date and amount |
| Exec.RowWithoutAmount | script.js:685-686 | a row without `;` has no amount field, so the payment is 0 euros |
| Exec.EpochDateDropped | script.js:731 | a row whose date is the epoch is dropped, whatever its amount |
| Exec.CollectRows | script.js:723-735 | the loop from index 1 collects each data line's contribution in file order, skipping the header |
| Exec.ParseExecRows | script.js:720-736 | the payments are the collected rows reordered by date, a permutation that keeps the file order of equal dates |
| Sorting.SortByStable | script.js:198 | sorting by a key keeps, for every key value, the elements carrying it in their original order |
| Sorting.SortBySorted | script.js:198 | the sorted sequence is ordered by the key |
| Sorting.SortBySortedInput | script.js:198 | records already in time order are left in their order |
| Ingest.IngestSpec | script.js:178-199 | the records are exactly the features with a numeric timestamp, each with its own timestamp and generated id, ordered by time with ties in input order, and no generated id appears twice |
| Ingest.StampDistinct | script.js:190-192 | the `gen_<n>` ids given to id-less features are pairwise distinct |
| Ingest.DroppedFeatureConsumesId | script.js:190-195 | the id counter advances over features later dropped: after an undated id-less feature, the next one is `gen_1` |
| Ingest.MissingDateDropped | script.js:180-187 | a feature with a missing or empty `fecha` is dropped |
| Timeline.GenerateMonthlySteps | script.js:157-172 | the loop returns the month starts from the month of the start through the month after the end |
| Timeline.StepsRiseByMonth | script.js:167-170 | each step is midnight of a first day, one calendar month after the step before it, and strictly later |
| Timeline.StepsEnds | script.js:157-172 | the first step is the first of the start's month; the last is the first of the month after the end's month, later than the end; there are two more steps than whole months between them |
| Timeline.ClampedEnd | script.js:209-212 | the latest timestamp is raised to 1 June 2017 when earlier, and otherwise kept |
| Timeline.ClampedSteps | script.js:208-214 | the steps of `initApp` start at 1 June 2017, end at the first of the month after the clamped latest timestamp, and are at least two |
| Timeline.OldDataTwoSteps | script.js:208-214 | records that all precede June 2017 give exactly the steps of June and July 2017 |
| Timeline.NaNBoundsNoSteps | script.js:157-172 | NaN bounds give no steps |
| Cumulative.TakeUpTo | script.js:240-243 | the inner loop adds payments from its start index while they are dated on or before the step, stopping at the first later one |
| Cumulative.CumulativeTotals | script.js:227-246 | one entry per step with the step's date, all zeros without payments, and with ordered steps and payments each entry holds the total paid up to its step |
| Cumulative.BudgetNonDecreasing | script.js:231-246 | with non-negative amounts the total never decreases from one step to a later one |
| Cumulative.LaterPaymentsIgnored | script.js:236-246 | payments dated after the last step do not change any total |
| Cumulative.TotalUpToAppend | script.js:236-246 | the total paid up to a date splits over a concatenation of payment lists |
| Cumulative.TotalWithPayment | script.js:236-246 | inserting one payment anywhere among the others adds its amount to the total up to a date exactly when it is dated on or before that date |
| Cumulative.BudgetWithPayment | script.js:231-246 | at every step, one extra payment raises the step's total by its amount exactly when it is dated on or before the step |
| Cumulative.BudgetChart | script.js:378-388 | nothing is shown while the budget chart does not exist, for an empty budget or for an index out of range; otherwise the history is the budget up to and including the step |
| Cumulative.KpiIsTotalUpTo | script.js:388-401 | the KPI at a step is the total paid up to that step |
| Visibility.VisibleMember | script.js:590 | a record is visible exactly when its timestamp is on or before the step |
| Visibility.VisibleGrows | script.js:590 | a later step never hides a visible record |
| Visibility.NothingVisibleWithoutStep | script.js:589-590 | a step index past the steps has no date, and every record compared with it is hidden |
| Visibility.VisiblePrefixGrows | script.js:590 | with records in time order, an earlier step shows a prefix of what a later step shows |
| Markers.FirstWithId | script.js:602-615 | the record that creates a marker carries the marker's id, is visible, and is the first visible record with that id |
| Markers.AddMissingSpec | script.js:601-617 | adding keeps every active marker untouched and creates one for each new visible id, from the first visible record with that id |
| Markers.UpdateMarkers | script.js:598-625 | afterwards the active ids are the visible ids when the user has interacted and none otherwise; markers already active are kept; new ones come from the first visible record with the id |
| Markers.NoMarkersBeforeInteraction | script.js:600-625 | before any interaction every marker is removed, whatever is visible |
| Markers.UpdateMarkersIdempotent | script.js:598-625 | repeating the update for the same visible records changes nothing |
| Markers.MarkersAreVisible | script.js:603-614 | every active marker is stored under the id of the record it was made from |
| Markers.TierIntervals | script.js:103-117 | each size tier covers one interval of amounts: at least one million, one hundred thousand, ten thousand, or less |
| Markers.PanesDistinct | script.js:41-51 | different size tiers go to different panes with different stacking orders |
| Markers.TierMonotone | script.js:103-117 | a larger amount never gets a smaller radius, or a pane drawn above a smaller amount's pane (the panes' stacking orders are the ones set at script.js:41-51) |
| Chart.RawTitular | script.js:562-563 | the holder is `titular` when present and non-empty, else `TITULAR` when so, else nothing |
| Chart.TitularCounts | script.js:559-567 | a holder key is in the counts exactly when some visible record has it, mapped to how many do |
| Chart.TitularCountPositive | script.js:561-567 | a key has a positive count exactly when some visible record carries it |
| Chart.CountsGrow | script.js:561-567 | with records in time order, a later step never lowers a holder's count or drops a holder |
| Chart.BlankHolderCounted | script.js:562-566 | any visible record whose holder is non-empty but made only of white space is counted, under the upper-cased empty text |
| Chart.UpperFieldFallback | script.js:563 | when `titular` is absent or empty, the holder is the upper-case `TITULAR` field if that is non-empty, and there is none otherwise |
| Playback.StepTime | script.js:587-589 | a step index has a time exactly when it is in range, and then it is that step's time |
| Playback.UpdateMap | script.js:586-625 | a redraw leaves index, playing and interaction alone, does nothing without steps, and otherwise leaves active exactly the visible ids if the user has interacted and none otherwise |
| Playback.UpdateMapIdempotent | script.js:586-625 | redrawing the same step twice is the same as once |
| Playback.SliderInput | script.js:256-260 | moving the slider sets the index to the chosen step and marks the user as having interacted |
| Playback.TogglePlay | script.js:634-673 | toggling flips playing and keeps the index; starting to play marks the user as having interacted, and nothing clears that |
| Playback.FirstPlayShowsMarkers | script.js:637-642 | the first play shows the markers of the current step at once |
| Playback.LaterToggleKeepsMarkers | script.js:634-643 | once the user has interacted, a toggle only flips playing and redraws nothing |
| Playback.TickSteps | script.js:652-662 | a tick while playing moves one step forward before the last step, and pauses at the last step without moving |
| Playback.TicksClosedForm | script.js:652-662 | n ticks from a playing state reach the step n later, capped at the last step, and are still playing exactly when they did not hit the cap |
| Playback.PausedStays | script.js:652-671 | without playing, ticks change nothing |
| Playback.SliderInputInv | script.js:256-260 | the slider keeps the controller invariant: index within the steps, playing implies interacted, and active markers are the visible ids of the current step, or none before interaction |
| Playback.TogglePlayInv | script.js:634-673 | toggling keeps the controller invariant |
| Playback.TickInv | script.js:652-662 | a tick keeps the controller invariant, so the index never passes the last step |
| Playback.TicksInv | script.js:652-662 | any number of ticks keeps the controller invariant |
| Playback.InteractionSticks | script.js:256-260 | once interacted, slider, toggle and tick never reset it |
| Playback.FirstRedraw | script.js:253 | the first redraw of `initApp` shows no markers and starts in the invariant |
| Playback.StepsAscending | script.js:157-172 | the generated steps are in ascending order |
| Playback.InitApp | script.js:174-253 | no app when no feature has a valid date; otherwise the ingested records, the steps from June 2017 to the month after the clamped latest record, one budget entry per step (the totals paid up to each step for date-ordered payments), a paused, uninteracted player with no markers satisfying the invariant, and each chart present exactly when its container is |
| Playback.Render | script.js:586-596 | a frame is drawn exactly when there are steps; it has holder counts exactly when the holder chart exists, and a budget view exactly when the budget chart exists and the index is within the budget |
| Playback.FirstFrameWithoutCharts | script.js:253-266 | the first redraw of `initApp` comes before either chart is created, so it shows the records of the first step but no counts and no budget |
| Playback.RenderAtStep | script.js:586-596 | at a step with both charts created, the frame shows exactly the records dated on or before it, the holder counts of those records, and a KPI equal to the total paid up to it |
| Playback.PaymentCountedNextStep | script.js:236-246 | a payment made after the first of some step's month is left out of that step and every earlier one, and added in full to every later step |

## Left out

- DOM, Leaflet and ECharts work is not modelled: map and pane setup, marker styling and popup HTML, chart options, resize font scaling, button icons and `animateValue`. It is presentation with no state the engine reads back.
- The top-10 ranking and bar order of the holder chart are not modelled, because the charting library does them. The order of `Object.keys` in the chart data is also left out, and the counts are a map.
- Locale formatting (`toLocaleDateString` labels and the month name shown) is not modelled.
- `fetch`, `Promise.all`, `alert` and `console` are left out as I/O. The execution file arrives as text, and `initApp` returns `None` where the code alerts and returns.
- `setInterval` timing is not modelled: each tick is one explicit step, `Playback.Tick`.
- The `new Date(string)` fallback of `parseDate` is a function parameter (`engine`) with no properties, because it is engine-specific.
- `toUpperCase` is a function parameter (`upper`), because Unicode case mapping is outside the model.
- Calendar: local time is treated as UTC, so there are no time-zone offsets or daylight-saving shifts.
- Numbers: `parseInt`, number conversion and `parseFloat` cover the decimal forms only. Hexadecimal, exponents, `Infinity` and fractional day or month fields are not modelled.
- Numbers.ParseInt: the `0x` hexadecimal prefix is not modelled, so `parseInt("0x1F")` reads as 0 where JavaScript gives 31. `Numbers.ParseIntOfDigits` and `Numbers.ParseIntOfRendering` exclude that input.
- Numbers.ParseFloat: exponents are not modelled, so an amount cell such as `1,5e3` reads as 1.5 where JavaScript gives 1500. `Numbers.ParseFloatOfDecimalPrefix` excludes a following `e`.
- Ingest.Feature: `fecha`, `id`, `titular` and `importe` are read as present-or-absent strings or numbers. Values of other JavaScript types are not modelled; a non-string `fecha`, for one, makes `dateStr.includes` throw and the whole load end in the `.catch` handler.
- Amounts.ParseEuroAmount: its own contract states only the empty case. The value of well-formed amounts is stated by `Amounts.EuroRoundTrip`, `Amounts.GroupedUnits` and `Amounts.SecondCommaEndsNumber`. The value is the exact decimal the text denotes, not the nearest IEEE double, so the rounding of very long amounts is not modelled.
- Exec.ParseRow: amounts are exact decimals, so the rounding of an IEEE running total is not modelled.
- Markers.UpdateMarkers: a marker is represented by the record it was created from, not by a Leaflet object, and the pop-in animation class is not modelled.
- Playback.UpdateMap: the date label update at the end of `updateMap` is not modelled.
- Playback.InitApp: the budget is stated as the running totals only when the payments come in date order, which `ParseExecRows` guarantees. For unordered input only its length and dates are stated.

=== FILE: amounts.dfy ===
/** `parseEuroAmount`: Spanish-formatted euro amounts such as `123.456,78`,
    where `.` groups thousands and `,` marks the decimals. The value is the
    exact decimal the text denotes, not its nearest double. */
module Amounts {
  import opened Options
  import opened Text
  import opened Numbers

  /** The text handed to `parseFloat`: every `.` removed, then the first `,`
      turned into a `.`. */
  function CleanAmount(s: string): string {
    ReplaceFirst(RemoveAll(s, '.'), ',', '.')
  }

  /** What cleaning does to the characters: all dots go, the first comma (if
      any) becomes the only dot, every other character stays. */
  lemma CleanAmountCounts(s: string)
    ensures |CleanAmount(s)| == |s| - Count(s, '.')
    ensures Count(CleanAmount(s), '.') == (if ',' in s then 1 else 0)
    ensures Count(CleanAmount(s), ',') == (if ',' in s then Count(s, ',') - 1 else 0)
    ensures forall x :: x != '.' && x != ',' ==> Count(CleanAmount(s), x) == Count(s, x)
  {
    var t := RemoveAll(s, '.');
    RemoveAllCounts(s, '.');
    assert ',' in t <==> ',' in s by {
      assert multiset(t)[','] == multiset(s)[','];
    }
    if ',' in t {
      ReplaceFirstCounts(t, ',', '.');
    }
  }

  /** Where cleaning puts the point: with the dots removed, the first comma
      (no comma stands before it) becomes `.` in place and every other
      character stays where it is; without a comma nothing else changes. */
  lemma CleanAmountFirstComma(s: string)
    ensures ',' !in RemoveAll(s, '.') ==> CleanAmount(s) == RemoveAll(s, '.')
    ensures var u := RemoveAll(s, '.');
            var i := IndexOf(u, ',');
            0 <= i ==> |CleanAmount(s)| == |u|
                       && (forall j :: 0 <= j < i ==> u[j] != ',')
                       && forall j :: 0 <= j < |u| ==> CleanAmount(s)[j] == (if j == i then '.' else u[j])
  {
    var u := RemoveAll(s, '.');
    if ',' in u {
      ReplaceFirstIndex(u, ',', '.');
    }
  }

  /** `parseEuroAmount(amountStr)`: 0 for an absent or empty string,
      otherwise `parseFloat` of the cleaned text (`None` is NaN). */
  function ParseEuroAmount(s: Option<string>): (r: Option<real>)
    ensures s.None? || s.value == "" ==> r == Some(0.0)
  {
    if s.None? || s.value == "" then Some(0.0) else ParseFloat(CleanAmount(s.value))
  }

  /** Digits grouped by threes from the right with `.`, as amounts are
      written (`1234567` becomes `1.234.567`). */
  function Group(digits: string): (r: string)
    ensures |digits| <= 3 ==> r == digits
    decreases |digits|
  {
    if |digits| <= 3 then digits
    else Group(digits[..|digits| - 3]) + "." + LastThree(digits)
  }

  function LastThree(digits: string): (r: string)
    requires |digits| >= 3
    ensures digits == digits[..|digits| - 3] + r
  {
    var n := |digits|;
    [digits[n - 3], digits[n - 2], digits[n - 1]]
  }

  /** Two-digit cents, `05` for 5. */
  function TwoDigits(c: nat): (r: string)
    requires c < 100
    ensures |r| == 2 && AllDigits(r) && DigitsValue(r) == c
  {
    var r := [DigitChar(c / 10), DigitChar(c % 10)];
    assert DigitsValue(r[..1]) == c / 10 by {
      assert r[..1][..0] == [];
    }
    r
  }

  /** An amount as the execution file writes it: grouped units, a decimal
      comma and two-digit cents. */
  function EuroText(units: nat, cents: nat): string
    requires cents < 100
  {
    Group(NatToString(units)) + "," + TwoDigits(cents)
  }

  /** Removing the group separators gives the digits back. */
  lemma {:induction false} UngroupGroup(digits: string)
    requires AllDigits(digits)
    ensures RemoveAll(Group(digits), '.') == digits
    decreases |digits|
  {
    if |digits| > 3 {
      var head := digits[..|digits| - 3];
      var tail := LastThree(digits);
      assert AllDigits(head) && AllDigits(tail);
      UngroupGroup(head);
      assert '.' !in tail;
      UngroupStep(Group(head), head, tail);
      assert digits == head + tail;
    }
  }

  lemma UngroupStep(g: string, head: string, tail: string)
    requires RemoveAll(g, '.') == head && '.' !in tail
    ensures RemoveAll(g + "." + tail, '.') == head + tail
  {
    assert g + "." + tail == (g + ".") + tail;
    RemoveAllAppend(g + ".", tail, '.');
    RemoveAllAppend(g, ".", '.');
    assert RemoveAll(".", '.') == RemoveAll("", '.') == "";
  }

  /** `parseEuroAmount` reads an amount written as `EuroText` as the
      number of euros it denotes. */
  lemma EuroRoundTrip(units: nat, cents: nat)
    requires cents < 100
    ensures ParseEuroAmount(Some(EuroText(units, cents))).Some?
    ensures ParseEuroAmount(Some(EuroText(units, cents))).value == units as real + cents as real / 100.0
  {
    var d, c := EuroDigits(units, cents);
    EuroTextValue(EuroText(units, cents), d, c, units as real + cents as real / 100.0);
  }

  /** The digit runs an amount is written with, and their value. */
  lemma EuroDigits(units: nat, cents: nat) returns (d: string, c: string)
    requires cents < 100
    ensures |d| >= 1 && AllDigits(d) && AllDigits(c)
    ensures EuroText(units, cents) == Group(d) + "," + c
    ensures DecimalValue(d, c) == units as real + cents as real / 100.0
  {
    d, c := NatToString(units), TwoDigits(cents);
    CentsValue(d, c, units, cents);
  }

  lemma EuroTextValue(text: string, d: string, c: string, v: real)
    requires |d| >= 1 && AllDigits(d) && AllDigits(c)
    requires text == Group(d) + "," + c && DecimalValue(d, c) == v
    ensures ParseEuroAmount(Some(text)) == Some(v)
  {
    CleanEuroText(d, c);
    CleanedValue(text, d, c);
  }

  lemma CleanedValue(text: string, d: string, c: string)
    requires |d| >= 1 && AllDigits(d) && AllDigits(c)
    requires text != "" && CleanAmount(text) == d + "." + c
    ensures ParseEuroAmount(Some(text)) == Some(DecimalValue(d, c))
  {
    ParseFloatOfDecimal(d, c);
  }

  lemma CentsValue(d: string, c: string, units: nat, cents: nat)
    requires AllDigits(d) && AllDigits(c) && |c| == 2
    requires DigitsValue(d) == units && DigitsValue(c) == cents
    ensures DecimalValue(d, c) == units as real + cents as real / 100.0
  {
    var h := c[..1];
    assert h[..0] == [] && h[0] == c[0];
    assert DigitsValue(h) == DigitValue(c[0]);
    assert DigitsValue(c) == 10 * DigitValue(c[0]) + DigitValue(c[1]);
    var t := c[1..];
    assert t[0] == c[1] && t[1..] == [];
    assert FractionValue(t) == DigitValue(c[1]) as real / 10.0;
    assert FractionValue(c) == (DigitValue(c[0]) as real + FractionValue(t)) / 10.0;
  }

  /** Cleaning `grouped digits , cents` leaves `digits . cents`. */
  lemma CleanEuroText(d: string, c: string)
    requires AllDigits(d) && AllDigits(c)
    ensures CleanAmount(Group(d) + "," + c) == d + "." + c
  {
    assert RemoveAll(Group(d) + "," + c, '.') == d + "," + c by {
      UngroupGroup(d);
      assert '.' !in c;
      UngroupComma(Group(d), d, c);
    }
    FirstCommaToPoint(d, c);
  }

  lemma UngroupComma(g: string, d: string, c: string)
    requires RemoveAll(g, '.') == d && '.' !in c
    ensures RemoveAll(g + "," + c, '.') == d + "," + c
  {
    assert g + "," + c == (g + ",") + c;
    RemoveAllAppend(g + ",", c, '.');
    RemoveAllAppend(g, ",", '.');
    assert RemoveAll(",", '.') == "," + RemoveAll("", '.') == ",";
  }

  lemma FirstCommaToPoint(a: string, b: string)
    requires ',' !in a
    ensures ReplaceFirst(a + "," + b, ',', '.') == a + "." + b
  {
    ReplaceFirstAt(a, ',', b, '.');
  }

  /** Dots are thousands separators even without a decimal part:
      `1.234` is one thousand two hundred and thirty-four. */
  lemma GroupedUnits(units: nat)
    ensures ParseEuroAmount(Some(Group(NatToString(units)))) == Some(units as real)
  {
    var d := NatToString(units);
    UngroupGroup(d);
    assert ',' !in d;
    assert |Group(d)| > 0 by {
      assert |RemoveAll(Group(d), '.')| <= |Group(d)|;
    }
    ParseFloatOfDigits(d);
  }

  /** Only the first comma becomes a decimal point: in `a,b,c` the second
      comma ends the number. */
  lemma SecondCommaEndsNumber(a: string, b: string, c: string)
    requires |a| >= 1 && AllDigits(a) && AllDigits(b) && AllDigits(c)
    ensures ParseEuroAmount(Some(a + "," + b + "," + c)) == Some(DecimalValue(a, b))
  {
    var rest := b + "," + c;
    assert a + "," + b + "," + c == a + "," + rest;
    assert RemoveAll(a + "," + rest, '.') == a + "," + rest by {
      assert '.' !in a + "," + rest;
    }
    FirstCommaToPoint(a, rest);
    assert a + "." + rest == a + "." + b + ("," + c);
    ParseFloatOfDecimalPrefix(a, b, "," + c);
  }

  /** A written amount holds only digits, group dots and the decimal comma. */
  lemma {:induction false} GroupAlphabet(digits: string)
    requires AllDigits(digits)
    ensures forall i :: 0 <= i < |Group(digits)| ==> IsDigit(Group(digits)[i]) || Group(digits)[i] == '.'
    decreases |digits|
  {
    if |digits| > 3 {
      GroupAlphabet(digits[..|digits| - 3]);
    }
  }

  lemma EuroTextAlphabet(units: nat, cents: nat, sep: char)
    requires cents < 100 && !IsDigit(sep) && sep != '.' && sep != ','
    ensures sep !in EuroText(units, cents)
  {
    GroupAlphabet(NatToString(units));
  }
}

=== FILE: calendar.dfy ===
/** The proleptic Gregorian calendar as JavaScript's `Date` sees it, in local
    time with no offset and no daylight saving: an instant is an integer
    count of milliseconds since 1970-01-01 00:00, and a month is numbered
    `year * 12 + monthIndex` with `monthIndex` in 0..11 (January is 0). */
module Calendar {
  import opened Options

  const MsPerDay: int := 86400000
  /** Largest magnitude a `Date` may hold; beyond it the value is NaN. */
  const MaxTime: int := 8640000000000000
  const EpochMonth: int := 1970 * 12

  predicate IsLeapYear(y: int) {
    y % 4 == 0 && (y % 100 != 0 || y % 400 == 0)
  }

  /** Number of days in month `k`. */
  function DaysInMonth(k: int): (n: int)
    ensures 28 <= n <= 31
  {
    var m := k % 12;
    if m == 1 then (if IsLeapYear(k / 12) then 29 else 28)
    else if m == 3 || m == 5 || m == 8 || m == 10 then 30
    else 31
  }

  /** Day number (days since 1970-01-01) of the first day of month `k`. */
  function MonthStartDay(k: int): int
    decreases if k < EpochMonth then EpochMonth - k else k - EpochMonth
  {
    if k == EpochMonth then 0
    else if k > EpochMonth then MonthStartDay(k - 1) + DaysInMonth(k - 1)
    else MonthStartDay(k + 1) - DaysInMonth(k)
  }

  /** Consecutive months are one month length apart. */
  lemma MonthStep(k: int)
    ensures MonthStartDay(k + 1) == MonthStartDay(k) + DaysInMonth(k)
  {
  }

  /** Over `b - a` months the first day moves by 28 to 31 days per month. */
  lemma {:induction false} MonthStartGrows(a: int, b: int)
    requires a <= b
    ensures MonthStartDay(a) + 28 * (b - a) <= MonthStartDay(b) <= MonthStartDay(a) + 31 * (b - a)
    decreases b - a
  {
    if a < b {
      MonthStartGrows(a, b - 1);
      MonthStep(b - 1);
    }
  }

  function SearchUp(day: int, k: int): (r: int)
    requires MonthStartDay(k) <= day
    ensures MonthStartDay(r) <= day < MonthStartDay(r + 1)
    decreases day - MonthStartDay(k)
  {
    MonthStep(k);
    if day < MonthStartDay(k + 1) then k else SearchUp(day, k + 1)
  }

  function SearchDown(day: int, k: int): (r: int)
    requires day < MonthStartDay(k + 1)
    ensures MonthStartDay(r) <= day < MonthStartDay(r + 1)
    decreases MonthStartDay(k + 1) - day
  {
    MonthStep(k);
    if MonthStartDay(k) <= day then k else SearchDown(day, k - 1)
  }

  /** The month that contains day number `day`. */
  function MonthOfDay(day: int): (k: int)
    ensures MonthStartDay(k) <= day < MonthStartDay(k + 1)
  {
    if day >= 0 then SearchUp(day, EpochMonth) else SearchDown(day, EpochMonth - 1)
  }

  /** Midnight at the start of the first day of month `k`. */
  function MonthStart(k: int): int {
    MonthStartDay(k) * MsPerDay
  }

  /** The month an instant falls in. */
  function MonthOf(t: int): (k: int)
    ensures MonthStart(k) <= t < MonthStart(k + 1)
  {
    var day := t / MsPerDay;
    var k := MonthOfDay(day);
    assert MonthStartDay(k) * MsPerDay <= day * MsPerDay;
    assert (day + 1) * MsPerDay <= MonthStartDay(k + 1) * MsPerDay;
    k
  }

  /** `MonthStart` is strictly increasing: a later month starts at least 28
      days later. */
  lemma MonthStartOrder(a: int, b: int)
    requires a < b
    ensures MonthStart(a) + 28 * MsPerDay <= MonthStart(b)
  {
    MonthStartGrows(a, b);
  }

  /** An instant lies in exactly one month. */
  lemma MonthOfUnique(t: int, k: int)
    requires MonthStart(k) <= t < MonthStart(k + 1)
    ensures MonthOf(t) == k
  {
    var j := MonthOf(t);
    if j < k {
      MonthStartGrows(j + 1, k);
    } else if j > k {
      MonthStartGrows(k + 1, j);
    }
  }

  /** Later instants never fall in earlier months. */
  lemma MonthOfMonotone(t1: int, t2: int)
    requires t1 <= t2
    ensures MonthOf(t1) <= MonthOf(t2)
  {
    var a, b := MonthOf(t1), MonthOf(t2);
    if b < a {
      MonthStartGrows(b + 1, a);
    }
  }

  /** The month start itself lies in its month. */
  lemma MonthOfMonthStart(k: int)
    ensures MonthOf(MonthStart(k)) == k
  {
    MonthStep(k);
    MonthOfUnique(MonthStart(k), k);
  }

  /** Milliseconds elapsed since the last local midnight. */
  function TimeInDay(t: int): (ms: int)
    ensures 0 <= ms < MsPerDay
  {
    t % MsPerDay
  }

  /** The year the Date constructor reads from `y`: 0..99 mean 1900..1999. */
  function FullYear(y: int): (year: int)
    ensures 0 <= y <= 99 ==> year == 1900 + y
    ensures !(0 <= y <= 99) ==> year == y
  {
    if 0 <= y <= 99 then 1900 + y else y
  }

  /** Midnight of day `d` (1-based, possibly out of range) of month `k`;
      NaN (`None`) beyond `MaxTime` in magnitude. */
  function MonthDayTime(k: int, d: int): (r: Option<int>)
    ensures r.Some? ==> -MaxTime <= r.value <= MaxTime
    ensures r.Some? ==> r.value == (MonthStartDay(k) + d - 1) * MsPerDay
  {
    var t := (MonthStartDay(k) + d - 1) * MsPerDay;
    if -MaxTime <= t <= MaxTime then Some(t) else None
  }

  /** `new Date(y, m, d)` in local time: a two-digit year 0..99 means
      1900..1999; `m` and `d` roll over into later (or earlier) months and
      years; a result beyond `MaxTime` in magnitude is NaN (`None`). */
  function LocalDate(y: int, m: int, d: int): (r: Option<int>)
    ensures r.Some? ==> -MaxTime <= r.value <= MaxTime
  {
    MonthDayTime(FullYear(y) * 12 + m, d)
  }

  /** A day past the end of month `k` is the same instant as the
      corresponding day of month `k + 1`. */
  lemma DayRollOver(k: int, d: int)
    ensures MonthDayTime(k, d) == MonthDayTime(k + 1, d - DaysInMonth(k))
  {
    MonthStep(k);
  }

  /** The Date constructor on components that may be NaN: any NaN component
      makes the result NaN. */
  function LocalDateOf(y: Option<int>, m: Option<int>, d: Option<int>): (r: Option<int>)
    ensures (y.None? || m.None? || d.None?) ==> r.None?
  {
    if y.Some? && m.Some? && d.Some? then LocalDate(y.value, m.value, d.value) else None
  }

  /** For an in-range day of a year outside 0..99, `new Date(y, m, d)` is
      midnight of day `d` of month `y * 12 + m`, and that is the month it
      falls in. */
  lemma LocalDateInMonth(y: int, m: int, d: int)
    requires !(0 <= y <= 99) && 0 <= m < 12 && 1 <= d <= DaysInMonth(y * 12 + m)
    requires LocalDate(y, m, d).Some?
    ensures LocalDate(y, m, d).value == MonthStart(y * 12 + m) + (d - 1) * MsPerDay
    ensures MonthOf(LocalDate(y, m, d).value) == y * 12 + m
  {
    var k := y * 12 + m;
    assert LocalDate(y, m, d) == MonthDayTime(k, d);
    MonthStep(k);
    MonthOfUnique(LocalDate(y, m, d).value, k);
  }

  /** Months between 1970 and the given one stay well inside `MaxTime`. */
  lemma MonthStartBounded(k: int)
    requires EpochMonth <= k <= EpochMonth + 12 * 10000
    ensures 0 <= MonthStart(k) && MonthStart(k) + 31 * MsPerDay <= MaxTime
  {
    MonthStartGrows(EpochMonth, k);
  }

  /** The Date constructor rolls components over: a month index of 12 or
      more moves into the next year, and a day past the end of its month
      moves into the next month. */
  lemma LocalDateRollOver(y: int, m: int, d: int)
    requires !(0 <= y <= 99) && !(0 <= y + 1 <= 99)
    ensures LocalDate(y, m + 12, d) == LocalDate(y + 1, m, d)
    ensures LocalDate(y, m, d) == LocalDate(y, m + 1, d - DaysInMonth(y * 12 + m))
  {
    assert FullYear(y) * 12 + (m + 12) == FullYear(y + 1) * 12 + m;
    assert FullYear(y) * 12 + (m + 1) == y * 12 + m + 1;
    DayRollOver(y * 12 + m, d);
  }

  /** A year 0..99 given to the Date constructor is a year of the 1900s. */
  lemma TwoDigitYear(y: int, m: int, d: int)
    requires 0 <= y <= 99
    ensures LocalDate(y, m, d) == LocalDate(1900 + y, m, d)
  {
  }
}

=== FILE: chart.dfy ===
/** The counting of `updateChart`: how many visible records each holder
    (`titular`) has. The chart itself, its ranking and its labels are drawn
    by the charting library and are not part of the model. */
module Chart {
  import opened Options
  import opened Sorting
  import opened Text
  import opened Ingest
  import opened Visibility

  /** `f.properties['titular'] || f.properties['TITULAR']`: the first of the
      two that is present and non-empty; `None` when neither is. */
  function RawTitular(f: Feature): (r: Option<string>)
    ensures r.Some? ==> r.value != ""
    ensures r.None? <==> (f.titular.None? || f.titular.value == "") && (f.titularAlt.None? || f.titularAlt.value == "")
    ensures f.titular.Some? && f.titular.value != "" ==> r == f.titular
    ensures !(f.titular.Some? && f.titular.value != "") ==> r == (if f.titularAlt == Some("") then None else f.titularAlt)
  {
    if f.titular.Some? && f.titular.value != "" then f.titular
    else if f.titularAlt.Some? && f.titularAlt.value != "" then f.titularAlt
    else None
  }

  /** The key a record is counted under, `rawTitular.trim().toUpperCase()`;
      `upper` stands for `toUpperCase`. Records without a holder are skipped. */
  function TitularKey(r: Record, upper: string -> string): Option<string> {
    match RawTitular(r.feature)
    case None => None
    case Some(raw) => Some(upper(Trim(raw)))
  }

  /** How many records are counted under `key`. */
  function TitularCount(vis: seq<Record>, upper: string -> string, key: string): nat {
    if |vis| == 0 then 0
    else TitularCount(vis[..|vis| - 1], upper, key) + (if TitularKey(vis[|vis| - 1], upper) == Some(key) then 1 else 0)
  }

  /** The `counts` object after the `forEach` over the visible records: a key
      for every holder seen, mapped to how many records it has. */
  function TitularCounts(vis: seq<Record>, upper: string -> string): (counts: map<string, nat>)
    ensures forall key :: key in counts <==> TitularCount(vis, upper, key) > 0
    ensures forall key :: key in counts ==> counts[key] == TitularCount(vis, upper, key)
  {
    if |vis| == 0 then map[]
    else
      var counts := TitularCounts(vis[..|vis| - 1], upper);
      match TitularKey(vis[|vis| - 1], upper)
      case None => counts
      case Some(key) => counts[key := (if key in counts then counts[key] else 0) + 1]
  }

  /** A key is counted exactly when some visible record carries it. */
  lemma {:induction false} TitularCountPositive(vis: seq<Record>, upper: string -> string, key: string)
    ensures TitularCount(vis, upper, key) > 0 <==>
              exists i :: 0 <= i < |vis| && TitularKey(vis[i], upper) == Some(key)
    decreases |vis|
  {
    if |vis| > 0 {
      var init := vis[..|vis| - 1];
      TitularCountPositive(init, upper, key);
      if TitularKey(vis[|vis| - 1], upper) == Some(key) {
        assert 0 <= |vis| - 1 < |vis| && TitularKey(vis[|vis| - 1], upper) == Some(key);
      } else {
        SameKeysInInit(vis, init, upper, key);
      }
    }
  }

  /** When the last record does not carry `key`, the others carry it
      exactly when the whole sequence does. */
  lemma SameKeysInInit(vis: seq<Record>, init: seq<Record>, upper: string -> string, key: string)
    requires |vis| > 0 && init == vis[..|vis| - 1] && TitularKey(vis[|vis| - 1], upper) != Some(key)
    ensures (exists i :: 0 <= i < |vis| && TitularKey(vis[i], upper) == Some(key)) <==>
              exists i :: 0 <= i < |init| && TitularKey(init[i], upper) == Some(key)
  {
    if i :| 0 <= i < |vis| && TitularKey(vis[i], upper) == Some(key) {
      assert i != |vis| - 1;
      assert init[i] == vis[i];
    }
    if i :| 0 <= i < |init| && TitularKey(init[i], upper) == Some(key) {
      assert vis[i] == init[i];
    }
  }

  /** Counting splits over concatenation: each record adds to its own key
      wherever it stands. */
  lemma {:induction false} TitularCountAppend(vis: seq<Record>, more: seq<Record>, upper: string -> string, key: string)
    ensures TitularCount(vis + more, upper, key) == TitularCount(vis, upper, key) + TitularCount(more, upper, key)
    decreases |more|
  {
    if |more| == 0 {
      assert vis + more == vis;
    } else {
      var init := more[..|more| - 1];
      assert (vis + more)[..|vis + more| - 1] == vis + init;
      assert (vis + more)[|vis + more| - 1] == more[|more| - 1];
      TitularCountAppend(vis, init, upper, key);
    }
  }

  /** Counting a prefix never gives more. */
  lemma TitularCountPrefix(vis: seq<Record>, n: nat, upper: string -> string, key: string)
    requires n <= |vis|
    ensures TitularCount(vis[..n], upper, key) <= TitularCount(vis, upper, key)
  {
    assert vis == vis[..n] + vis[n..];
    TitularCountAppend(vis[..n], vis[n..], upper, key);
  }

  /** With records in timestamp order, moving the step forward never lowers
      a holder's count, and never drops a holder from the chart. */
  lemma CountsGrow(records: seq<Record>, t1: int, t2: int, upper: string -> string, key: string)
    requires SortedBy(records, RecordTime) && t1 <= t2
    ensures TitularCount(Visible(records, Some(t1)), upper, key) <= TitularCount(Visible(records, Some(t2)), upper, key)
    ensures key in TitularCounts(Visible(records, Some(t1)), upper) ==> key in TitularCounts(Visible(records, Some(t2)), upper)
  {
    VisiblePrefixGrows(records, t1, t2);
    TitularCountPrefix(Visible(records, Some(t2)), |Visible(records, Some(t1))|, upper, key);
  }

  /** A holder made only of white space is still counted, under the key of
      the empty text, wherever it stands among the visible records. */
  lemma BlankHolderCounted(vis: seq<Record>, upper: string -> string, i: int)
    requires 0 <= i < |vis| && RawTitular(vis[i].feature).Some?
    requires forall k :: 0 <= k < |RawTitular(vis[i].feature).value| ==> IsSpace(RawTitular(vis[i].feature).value[k])
    ensures TitularKey(vis[i], upper) == Some(upper(""))
    ensures upper("") in TitularCounts(vis, upper)
  {
    TrimAllSpace(RawTitular(vis[i].feature).value);
    TitularCountPositive(vis, upper, upper(""));
  }

  /** The upper-case field is used only when the lower-case one is absent
      or empty. */
  lemma UpperFieldFallback(f: Feature)
    requires f.titular.None? || f.titular == Some("")
    ensures RawTitular(f) == (if f.titularAlt == Some("") then None else f.titularAlt)
  {
  }
}

=== FILE: cumulative.dfy ===
/** The running budget of `initApp` (one total per month step, merging the
    date-ordered payments into the ordered steps) and the slice of it
    `updateBudgetChart` shows. */
module Cumulative {
  import opened Options
  import opened Sorting
  import opened Exec

  /** One entry of `cumulativeBudgetSteps`. */
  datatype BudgetStep = BudgetStep(date: int, total: real)

  /** Sum of all amounts. */
  function Sum(events: seq<ExecEvent>): real {
    if |events| == 0 then 0.0 else Sum(events[..|events| - 1]) + events[|events| - 1].amount
  }

  /** Sum of the amounts of the payments dated on or before `t`. */
  function TotalUpTo(events: seq<ExecEvent>, t: int): real {
    if |events| == 0 then 0.0
    else
      var last := events[|events| - 1];
      TotalUpTo(events[..|events| - 1], t) + (if last.date <= t then last.amount else 0.0)
  }

  predicate Ascending(steps: seq<int>) {
    forall i, j :: 0 <= i < j < |steps| ==> steps[i] <= steps[j]
  }

  /** The budget in closed form: each step carries the total paid up to it. */
  function Budget(steps: seq<int>, events: seq<ExecEvent>): (b: seq<BudgetStep>)
    ensures |b| == |steps|
    ensures forall i :: 0 <= i < |steps| ==> b[i] == BudgetStep(steps[i], TotalUpTo(events, steps[i]))
  {
    seq(|steps|, i requires 0 <= i < |steps| => BudgetStep(steps[i], TotalUpTo(events, steps[i])))
  }

  lemma SumSnoc(events: seq<ExecEvent>, j: nat)
    requires j < |events|
    ensures Sum(events[..j + 1]) == Sum(events[..j]) + events[j].amount
  {
    assert events[..j + 1][..j] == events[..j];
  }

  /** When every payment is on or before `t`, all of them count. */
  lemma {:induction false} AllCounted(events: seq<ExecEvent>, t: int)
    requires forall k :: 0 <= k < |events| ==> events[k].date <= t
    ensures TotalUpTo(events, t) == Sum(events)
    decreases |events|
  {
    if |events| > 0 {
      AllCounted(events[..|events| - 1], t);
    }
  }

  /** In date order, the payments up to `t` are a prefix: the first `j`,
      when those are on or before `t` and the rest after it. */
  lemma {:induction false} TotalIsPrefixSum(events: seq<ExecEvent>, t: int, j: nat)
    requires j <= |events|
    requires forall k :: 0 <= k < j ==> events[k].date <= t
    requires forall k :: j <= k < |events| ==> events[k].date > t
    ensures TotalUpTo(events, t) == Sum(events[..j])
    decreases |events|
  {
    if |events| == j {
      assert events[..j] == events;
      AllCounted(events, t);
    } else {
      var init := events[..|events| - 1];
      TotalIsPrefixSum(init, t, j);
      assert init[..j] == events[..j];
    }
  }

  /** Where the inner loop stops, the payments taken so far are exactly
      those up to the step. */
  lemma StopsAtStep(events: seq<ExecEvent>, stepDate: int, execIndex: nat)
    requires SortedBy(events, EventDate) && execIndex <= |events|
    requires forall k :: 0 <= k < execIndex ==> events[k].date <= stepDate
    requires execIndex == |events| || events[execIndex].date > stepDate
    ensures TotalUpTo(events, stepDate) == Sum(events[..execIndex])
  {
    assert forall k :: execIndex <= k < |events| ==> events[k].date > stepDate by {
      if execIndex < |events| {
        assert EventDate(events[execIndex]) > stepDate;
      }
    }
    TotalIsPrefixSum(events, stepDate, execIndex);
  }

  /** The inner `while`: adds the payments from `start` on while they are
      dated on or before `stepDate`. */
  method TakeUpTo(events: seq<ExecEvent>, start: nat, running: real, stepDate: int) returns (next: nat, total: real)
    requires start <= |events| && running == Sum(events[..start])
    ensures start <= next <= |events| && total == Sum(events[..next])
    ensures forall k :: start <= k < next ==> events[k].date <= stepDate
    ensures next == |events| || events[next].date > stepDate
  {
    next, total := start, running;
    while next < |events| && events[next].date <= stepDate
      invariant start <= next <= |events| && total == Sum(events[..next])
      invariant forall k :: start <= k < next ==> events[k].date <= stepDate
    {
      SumSnoc(events, next);
      total := total + events[next].amount;
      next := next + 1;
    }
  }

  /** The per-step budget of `initApp`: zeros when there are no payments,
      otherwise one pass over the steps that adds every payment dated on
      or before each step. With ordered steps and ordered payments, each
      step carries the total paid up to it. */
  method CumulativeTotals(steps: seq<int>, events: seq<ExecEvent>) returns (budget: seq<BudgetStep>)
    ensures |budget| == |steps|
    ensures forall i :: 0 <= i < |steps| ==> budget[i].date == steps[i]
    ensures |events| == 0 ==> forall i :: 0 <= i < |steps| ==> budget[i].total == 0.0
    ensures Ascending(steps) && SortedBy(events, EventDate) ==> budget == Budget(steps, events)
  {
    budget := seq(|steps|, i requires 0 <= i < |steps| => BudgetStep(steps[i], 0.0));
    if |events| == 0 {
      return;
    }
    ghost var ordered := Ascending(steps) && SortedBy(events, EventDate);
    var running := 0.0;
    var execIndex := 0;
    var i := 0;
    while i < |steps|
      invariant 0 <= i <= |steps| && 0 <= execIndex <= |events|
      invariant |budget| == |steps|
      invariant forall j :: 0 <= j < |steps| ==> budget[j].date == steps[j]
      invariant running == Sum(events[..execIndex])
      invariant i == 0 ==> execIndex == 0
      invariant ordered && i > 0 ==> forall k :: 0 <= k < execIndex ==> events[k].date <= steps[i - 1]
      invariant ordered ==> forall j :: 0 <= j < i ==> budget[j] == BudgetStep(steps[j], TotalUpTo(events, steps[j]))
    {
      var stepDate := steps[i];
      assert ordered && i > 0 ==> steps[i - 1] <= stepDate;
      execIndex, running := TakeUpTo(events, execIndex, running, stepDate);
      if ordered {
        StopsAtStep(events, stepDate, execIndex);
      }
      budget := budget[i := BudgetStep(stepDate, running)];
      i := i + 1;
    }
    assert ordered ==> forall j :: 0 <= j < |steps| ==> budget[j] == Budget(steps, events)[j];
  }

  /** With non-negative amounts the total never decreases over time. */
  lemma {:induction false} TotalUpToMonotone(events: seq<ExecEvent>, t1: int, t2: int)
    requires t1 <= t2
    requires forall k :: 0 <= k < |events| ==> events[k].amount >= 0.0
    ensures TotalUpTo(events, t1) <= TotalUpTo(events, t2)
    decreases |events|
  {
    if |events| > 0 {
      TotalUpToMonotone(events[..|events| - 1], t1, t2);
    }
  }

  /** So, with ordered steps, the budget never decreases from step to step. */
  lemma BudgetNonDecreasing(steps: seq<int>, events: seq<ExecEvent>, i: int, j: int)
    requires Ascending(steps) && 0 <= i <= j < |steps|
    requires forall k :: 0 <= k < |events| ==> events[k].amount >= 0.0
    ensures Budget(steps, events)[i].total <= Budget(steps, events)[j].total
  {
    TotalUpToMonotone(events, steps[i], steps[j]);
  }

  /** Payments after the last step are never counted: the last total is
      the same as without them. */
  lemma {:induction false} LaterPaymentsIgnored(events: seq<ExecEvent>, later: seq<ExecEvent>, t: int)
    requires forall k :: 0 <= k < |later| ==> later[k].date > t
    ensures TotalUpTo(events + later, t) == TotalUpTo(events, t)
    decreases |later|
  {
    if |later| > 0 {
      var init := later[..|later| - 1];
      assert (events + later)[..|events + later| - 1] == events + init;
      assert (events + later)[|events + later| - 1] == later[|later| - 1];
      LaterPaymentsIgnored(events, init, t);
    } else {
      assert events + later == events;
    }
  }

  /** Totals split over concatenation. */
  lemma {:induction false} TotalUpToAppend(a: seq<ExecEvent>, b: seq<ExecEvent>, t: int)
    ensures TotalUpTo(a + b, t) == TotalUpTo(a, t) + TotalUpTo(b, t)
    decreases |b|
  {
    if |b| == 0 {
      assert a + b == a;
    } else {
      var init := b[..|b| - 1];
      assert (a + b)[..|a + b| - 1] == a + init;
      assert (a + b)[|a + b| - 1] == b[|b| - 1];
      TotalUpToAppend(a, init, t);
    }
  }

  /** One payment, wherever it stands among the others, adds its amount
      to the total at `t` exactly when it is dated on or before `t`. */
  lemma TotalWithPayment(pre: seq<ExecEvent>, e: ExecEvent, post: seq<ExecEvent>, t: int)
    ensures TotalUpTo(pre + [e] + post, t) == TotalUpTo(pre + post, t) + (if e.date <= t then e.amount else 0.0)
  {
    TotalUpToAppend(pre + [e], post, t);
    TotalUpToAppend(pre, [e], t);
    TotalUpToAppend(pre, post, t);
    assert [e][..0] == [];
  }

  /** The same at a step of the budget. */
  lemma BudgetWithPayment(steps: seq<int>, pre: seq<ExecEvent>, e: ExecEvent, post: seq<ExecEvent>, j: int)
    requires 0 <= j < |steps|
    ensures Budget(steps, pre + [e] + post)[j].total
         == Budget(steps, pre + post)[j].total + (if e.date <= steps[j] then e.amount else 0.0)
  {
    TotalWithPayment(pre, e, post, steps[j]);
  }

  /** What `updateBudgetChart(stepIndex)` shows: the budget up to and
      including the step, and the last total as the KPI value. */
  datatype BudgetView = BudgetView(history: seq<BudgetStep>, kpi: real)

  /** `None` is the early return: the chart not created yet (`ready` is
      false until `initBudgetChart` has found its container), an empty budget
      or an index out of range. */
  function BudgetChart(budget: seq<BudgetStep>, stepIndex: int, ready: bool): (r: Option<BudgetView>)
    ensures r.Some? <==> ready && 0 <= stepIndex < |budget|
    ensures r.Some? ==> |r.value.history| == stepIndex + 1
    ensures r.Some? ==> forall k :: 0 <= k <= stepIndex ==> r.value.history[k] == budget[k]
  {
    if !ready || |budget| == 0 then None
    else if stepIndex < 0 || stepIndex >= |budget| then None
    else
      var history := budget[..stepIndex + 1];
      Some(BudgetView(history, history[|history| - 1].total))
  }

  /** The KPI at a step is the total paid up to that step. */
  lemma KpiIsTotalUpTo(steps: seq<int>, events: seq<ExecEvent>, stepIndex: int)
    requires 0 <= stepIndex < |steps|
    ensures BudgetChart(Budget(steps, events), stepIndex, true).Some?
    ensures BudgetChart(Budget(steps, events), stepIndex, true).value.kpi == TotalUpTo(events, steps[stepIndex])
  {
  }
}

=== FILE: dates.dfy ===
/** The two date parsers of the engine: `parseDate` for the record dates
    (`YYYY-MM-DD` or `DD/MM/YYYY`) and `parseExecDate` for the execution
    rows (`DD/MM/YYYY HH:mm`). Components are read as local calendar values
    and handed to the Date constructor, which rolls out-of-range months and
    days over instead of rejecting them. */
module Dates {
  import opened Options
  import opened Text
  import opened Numbers
  import opened Calendar

  /** What a parser hands back: `null`, or a date whose time may be NaN. */
  datatype DateValue = Null | DateOf(time: Option<int>)

  /** `x - 1` where `x` may be NaN. */
  function Minus1(x: Option<int>): Option<int> {
    if x.Some? then Some(x.value - 1) else None
  }

  /** The three fields of a `YYYY-MM-DD` string, as `parseInt` reads them. */
  function IsoFields(year: string, month: string, day: string): Option<int> {
    LocalDateOf(ParseInt(year), Minus1(ParseInt(month)), ParseInt(day))
  }

  /** The three fields of a `DD/MM/YYYY` string, as the Date constructor's
      own string-to-number conversion reads them. */
  function DmyFields(day: string, month: string, year: string): Option<int> {
    LocalDateOf(ToNumber(year), Minus1(ToNumber(month)), ToNumber(day))
  }

  /** `parseDate(dateStr)`. `engine` is the JavaScript engine's own
      `new Date(string)` parser, used when neither shape matches. */
  function ParseDate(s: Option<string>, engine: string -> Option<int>): (r: DateValue)
    ensures r.Null? <==> s.None? || s.value == ""
    ensures r.DateOf? && '-' in s.value && |Split(s.value, '-')| == 3 ==>
              r.time == IsoFields(Split(s.value, '-')[0], Split(s.value, '-')[1], Split(s.value, '-')[2])
    ensures r.DateOf? && |Split(s.value, '-')| != 3 && |Split(s.value, '/')| == 3 ==>
              r.time == DmyFields(Split(s.value, '/')[0], Split(s.value, '/')[1], Split(s.value, '/')[2])
    ensures r.DateOf? && |Split(s.value, '-')| != 3 && |Split(s.value, '/')| != 3 ==>
              r.time == engine(s.value)
  {
    if s.None? || s.value == "" then Null
    else
      var str := s.value;
      var dashed := Split(str, '-');
      if '-' in str && |dashed| == 3 then DateOf(IsoFields(dashed[0], dashed[1], dashed[2]))
      else
        var slashed := Split(str, '/');
        if |slashed| != 3 then DateOf(engine(str))
        else DateOf(DmyFields(slashed[0], slashed[1], slashed[2]))
  }

  /** `parseExecDate(dateStr)`: only the text before the first space counts,
      and it must have exactly three `/` fields, else the result is `null`. */
  function ParseExecDate(s: Option<string>): (r: DateValue)
    ensures r.DateOf? <==> s.Some? && s.value != "" && |Split(Head(s.value, ' '), '/')| == 3
    ensures r.DateOf? ==> r.time == DmyFields(Split(Head(s.value, ' '), '/')[0], Split(Head(s.value, ' '), '/')[1], Split(Head(s.value, ' '), '/')[2])
  {
    if s.None? || s.value == "" then Null
    else
      var parts := Split(Head(s.value, ' '), '/');
      if |parts| != 3 then Null else DateOf(DmyFields(parts[0], parts[1], parts[2]))
  }

  /** Three separator-free fields joined by `sep` split back into those fields. */
  lemma SplitThreeFields(a: string, b: string, c: string, sep: char)
    requires sep !in a && sep !in b && sep !in c
    ensures Split(a + [sep] + b + [sep] + c, sep) == [a, b, c]
  {
    var tail := b + [sep] + c;
    assert a + [sep] + b + [sep] + c == a + [sep] + tail;
    SplitAfterPiece(a, sep, tail);
    SplitAfterPiece(b, sep, c);
    SplitWithoutSeparator(c, sep);
  }

  lemma DigitsHaveNo(a: string, sep: char)
    requires AllDigits(a) && !IsDigit(sep)
    ensures sep !in a
  {
  }

  /** The dashed branch of `parseDate` applies once the string splits into
      three dashed fields. */
  lemma IsoBranch(s: string, parts: seq<string>, engine: string -> Option<int>)
    requires s != "" && '-' in s && Split(s, '-') == parts && |parts| == 3
    ensures ParseDate(Some(s), engine) == DateOf(IsoFields(parts[0], parts[1], parts[2]))
  {
  }

  /** The slashed branch of `parseDate` applies once the string has no
      three dashed fields and splits into three slashed ones. */
  lemma DmyBranch(s: string, parts: seq<string>, engine: string -> Option<int>)
    requires s != "" && |Split(s, '-')| != 3 && Split(s, '/') == parts && |parts| == 3
    ensures ParseDate(Some(s), engine) == DateOf(DmyFields(parts[0], parts[1], parts[2]))
  {
  }

  /** Digit fields with values `yv`, `mv`, `dv` read by `parseInt`. */
  lemma IsoFieldsOfDigits(y: string, m: string, d: string, yv: int, mv: int, dv: int)
    requires |y| >= 1 && |m| >= 1 && |d| >= 1
    requires AllDigits(y) && AllDigits(m) && AllDigits(d)
    requires DigitsValue(y) == yv && DigitsValue(m) == mv && DigitsValue(d) == dv
    ensures IsoFields(y, m, d) == LocalDate(yv, mv - 1, dv)
  {
    ParseIntOfDigitString(y);
    ParseIntOfDigitString(m);
    ParseIntOfDigitString(d);
    IsoFieldsOf(y, m, d, yv, mv, dv);
  }

  /** Digit fields with values `yv`, `mv`, `dv` read by `ToNumber`. */
  lemma DmyFieldsOfDigits(y: string, m: string, d: string, yv: int, mv: int, dv: int)
    requires |y| >= 1 && |m| >= 1 && |d| >= 1
    requires AllDigits(y) && AllDigits(m) && AllDigits(d)
    requires DigitsValue(y) == yv && DigitsValue(m) == mv && DigitsValue(d) == dv
    ensures DmyFields(d, m, y) == LocalDate(yv, mv - 1, dv)
  {
    ToNumberOfDigits(d);
    ToNumberOfDigits(m);
    ToNumberOfDigits(y);
    DmyFieldsOf(d, m, y, dv, mv, yv);
  }

  lemma IsoFieldsOf(y: string, m: string, d: string, yv: int, mv: int, dv: int)
    requires ParseInt(y) == Some(yv) && ParseInt(m) == Some(mv) && ParseInt(d) == Some(dv)
    ensures IsoFields(y, m, d) == LocalDate(yv, mv - 1, dv)
  {
  }

  lemma DmyFieldsOf(d: string, m: string, y: string, dv: int, mv: int, yv: int)
    requires ToNumber(d) == Some(dv) && ToNumber(m) == Some(mv) && ToNumber(y) == Some(yv)
    ensures DmyFields(d, m, y) == LocalDate(yv, mv - 1, dv)
  {
    assert Minus1(ToNumber(m)) == Some(mv - 1);
    assert LocalDateOf(Some(yv), Some(mv - 1), Some(dv)) == LocalDate(yv, mv - 1, dv);
  }

  /** Any `YYYY-MM-DD` made of digit runs with values `yv`, `mv`, `dv` is
      read field by field: year, month - 1, day. */
  lemma ParseIsoDigits(y: string, m: string, d: string, yv: int, mv: int, dv: int, engine: string -> Option<int>)
    requires |y| >= 1 && |m| >= 1 && |d| >= 1
    requires AllDigits(y) && AllDigits(m) && AllDigits(d)
    requires DigitsValue(y) == yv && DigitsValue(m) == mv && DigitsValue(d) == dv
    ensures ParseDate(Some(y + "-" + m + "-" + d), engine) == DateOf(LocalDate(yv, mv - 1, dv))
  {
    IsoShape(y, m, d);
    IsoFieldsOfDigits(y, m, d, yv, mv, dv);
    IsoBranch(y + "-" + m + "-" + d, [y, m, d], engine);
  }

  /** Three digit runs joined by dashes split back into those runs. */
  lemma IsoShape(y: string, m: string, d: string)
    requires |y| >= 1 && AllDigits(y) && AllDigits(m) && AllDigits(d)
    ensures '-' in y + "-" + m + "-" + d
    ensures Split(y + "-" + m + "-" + d, '-') == [y, m, d]
  {
    var s := y + "-" + m + "-" + d;
    DigitsHaveNo(y, '-');
    DigitsHaveNo(m, '-');
    DigitsHaveNo(d, '-');
    SplitThreeFields(y, m, d, '-');
    assert s[|y|] == '-';
  }

  /** Any `DD/MM/YYYY` made of digit runs with values `dv`, `mv`, `yv` is
      read field by field: year from the third field, month - 1 from the
      second, day from the first. */
  lemma ParseDmyDigits(d: string, m: string, y: string, dv: int, mv: int, yv: int, engine: string -> Option<int>)
    requires |y| >= 1 && |m| >= 1 && |d| >= 1
    requires AllDigits(y) && AllDigits(m) && AllDigits(d)
    requires DigitsValue(y) == yv && DigitsValue(m) == mv && DigitsValue(d) == dv
    ensures ParseDate(Some(d + "/" + m + "/" + y), engine) == DateOf(LocalDate(yv, mv - 1, dv))
  {
    DmyShape(d, m, y);
    DmyFieldsOfDigits(y, m, d, yv, mv, dv);
    DmyBranch(d + "/" + m + "/" + y, [d, m, y], engine);
  }

  /** Three digit runs joined by slashes split back into those runs and
      have no dash at all. */
  lemma DmyShape(d: string, m: string, y: string)
    requires AllDigits(y) && AllDigits(m) && AllDigits(d)
    ensures Split(d + "/" + m + "/" + y, '/') == [d, m, y]
    ensures |Split(d + "/" + m + "/" + y, '-')| == 1
  {
    var s := d + "/" + m + "/" + y;
    DigitsHaveNo(y, '/');
    DigitsHaveNo(m, '/');
    DigitsHaveNo(d, '/');
    SplitThreeFields(d, m, y, '/');
    DigitsHaveNo(y, '-');
    DigitsHaveNo(m, '-');
    DigitsHaveNo(d, '-');
    assert '-' !in s;
    SplitWithoutSeparator(s, '-');
  }

  /** An execution date `DD/MM/YYYY` followed by a space and any time of day
      is read from its date part alone. */
  lemma ParseExecDigits(d: string, m: string, y: string, dv: int, mv: int, yv: int, time: string)
    requires |y| >= 1 && |m| >= 1 && |d| >= 1
    requires AllDigits(y) && AllDigits(m) && AllDigits(d)
    requires DigitsValue(y) == yv && DigitsValue(m) == mv && DigitsValue(d) == dv
    ensures ParseExecDate(Some(d + "/" + m + "/" + y + " " + time)) == DateOf(LocalDate(yv, mv - 1, dv))
  {
    ExecShape(d, m, y, time);
    DmyFieldsOfDigits(y, m, d, yv, mv, dv);
    ExecBranch(d + "/" + m + "/" + y + " " + time, [d, m, y]);
  }

  /** The date part of `DD/MM/YYYY time` is the text before the space, and
      it splits into its three digit runs. */
  lemma ExecShape(d: string, m: string, y: string, time: string)
    requires AllDigits(y) && AllDigits(m) && AllDigits(d)
    ensures Head(d + "/" + m + "/" + y + " " + time, ' ') == d + "/" + m + "/" + y
    ensures Split(d + "/" + m + "/" + y, '/') == [d, m, y]
  {
    var date := d + "/" + m + "/" + y;
    DigitsHaveNo(y, ' ');
    DigitsHaveNo(m, ' ');
    DigitsHaveNo(d, ' ');
    assert ' ' !in date;
    SplitAfterPiece(date, ' ', time);
    DigitsHaveNo(y, '/');
    DigitsHaveNo(m, '/');
    DigitsHaveNo(d, '/');
    SplitThreeFields(d, m, y, '/');
  }

  /** `parseExecDate` reads the three slashed fields of the text before the
      first space. */
  lemma ExecBranch(s: string, parts: seq<string>)
    requires s != "" && Split(Head(s, ' '), '/') == parts && |parts| == 3
    ensures ParseExecDate(Some(s)) == DateOf(DmyFields(parts[0], parts[1], parts[2]))
  {
  }

  /** Out-of-range components are not rejected: for any year of three or
      more digits, month 13, day 40 rolls over to 9 February of the next year
      (`"2017-13-40"` is 9 February 2018). */
  lemma MonthAndDayRollOver(y: string, yv: int, engine: string -> Option<int>)
    requires |y| >= 1 && AllDigits(y) && DigitsValue(y) == yv && yv >= 100
    ensures ParseDate(Some(y + "-13-40"), engine) == DateOf(LocalDate(yv + 1, 1, 9))
  {
    MonthThirteen(y, yv, engine);
    JanuaryRollOver(yv);
  }

  /** `y-13-40` asks for month index 12, day 40 of year `y`. */
  lemma MonthThirteen(y: string, yv: int, engine: string -> Option<int>)
    requires |y| >= 1 && AllDigits(y) && DigitsValue(y) == yv
    ensures ParseDate(Some(y + "-13-40"), engine) == DateOf(LocalDate(yv, 12, 40))
  {
    ThirteenForty(y);
    ParseIsoDigits(y, "13", "40", yv, 13, 40, engine);
  }

  /** The fields `13` and `40` are digit runs with those values, and
      `y-13-40` is `y` followed by them and their dashes. */
  lemma ThirteenForty(y: string)
    ensures AllDigits("13") && DigitsValue("13") == 13
    ensures AllDigits("40") && DigitsValue("40") == 40
    ensures y + "-13-40" == y + "-" + "13" + "-" + "40"
  {
    assert "13"[..1] == "1" && "1"[..0] == "";
    assert "40"[..1] == "4" && "4"[..0] == "";
  }

  lemma JanuaryRollOver(y: int)
    requires y >= 100
    ensures LocalDate(y, 12, 40) == LocalDate(y + 1, 1, 9)
  {
    var k := (y + 1) * 12;
    assert FullYear(y) * 12 + 12 == k && FullYear(y + 1) * 12 + 1 == k + 1;
    assert k % 12 == 0;
    DayRollOver(k, 40);
  }

  /** A two-digit year field means a year of the 1900s: `05/06/17` is
      5 June 1917. */
  lemma TwoDigitYearField(d: string, m: string, y: string, dv: int, mv: int, yv: int, engine: string -> Option<int>)
    requires |y| >= 1 && |m| >= 1 && |d| >= 1
    requires AllDigits(y) && AllDigits(m) && AllDigits(d)
    requires DigitsValue(y) == yv && DigitsValue(m) == mv && DigitsValue(d) == dv
    requires yv <= 99
    ensures ParseDate(Some(d + "/" + m + "/" + y), engine) == DateOf(LocalDate(1900 + yv, mv - 1, dv))
  {
    ParseDmyDigits(d, m, y, dv, mv, yv, engine);
    TwoDigitYear(yv, mv - 1, dv);
  }

  /** A dashed string with three fields whose first field does not start
      with a digit, a sign or white space (`"not-a-date"`, say) is a Date whose
      time is NaN. */
  lemma NonNumericYearIsNaN(a: string, b: string, c: string, engine: string -> Option<int>)
    requires '-' !in a && '-' !in b && '-' !in c
    requires |a| > 0 && !IsDigit(a[0]) && !IsSpace(a[0]) && a[0] != '+'
    ensures ParseDate(Some(a + "-" + b + "-" + c), engine) == DateOf(None)
  {
    var s := a + "-" + b + "-" + c;
    assert Split(s, '-') == [a, b, c] by {
      SplitThreeFields(a, b, c, '-');
    }
    assert '-' in s by {
      assert s[|a|] == '-';
    }
    IsoBranch(s, [a, b, c], engine);
    assert ParseInt(a) == None by {
      assert TrimStart(a) == a;
      assert StripSign(a).1 == a;
    }
  }
}

=== FILE: exec.dfy ===
/** The execution file: a header line, then one `date;amount` row per
    payment. Rows whose date is missing, malformed or zero, or whose amount
    is NaN, are dropped; the rest are ordered by date. */
module Exec {
  import opened Options
  import opened Text
  import opened Numbers
  import opened Calendar
  import opened Dates
  import opened Amounts
  import opened Sorting

  /** One payment: its time in milliseconds and its amount in euros. */
  datatype ExecEvent = ExecEvent(date: int, amount: real)

  function EventDate(e: ExecEvent): int {
    e.date
  }

  /** The date field of a row: the text before its first `;`. */
  function DateField(row: string): string {
    Split(row, ';')[0]
  }

  /** The amount field of a row: the text between its first and second `;`,
      `undefined` (`None`) when the row has no `;`. */
  function AmountField(row: string): Option<string> {
    var parts := Split(row, ';');
    if |parts| >= 2 then Some(parts[1]) else None
  }

  /** One trimmed row, split on `;`: the first field is the date, the
      second (absent when the row has no `;`) the amount. The row is kept
      when the date is a non-zero time and the amount is a number; a kept
      row carries exactly that time and that amount. */
  function ParseRow(row: string): (r: Option<ExecEvent>)
    ensures r.Some? ==> r.value.date != 0
    ensures r.Some? ==> ParseExecDate(Some(DateField(row))) == DateOf(Some(r.value.date))
    ensures r.Some? ==> ParseEuroAmount(AmountField(row)).Some?
    ensures r.Some? ==> ParseEuroAmount(AmountField(row)).value == r.value.amount
  {
    var date := ParseExecDate(Some(DateField(row)));
    var amount := ParseEuroAmount(AmountField(row));
    if date.DateOf? && date.time.Some? && date.time.value != 0 && amount.Some? then
      Some(ExecEvent(date.time.value, amount.value))
    else None
  }

  /** The drop half of the filter: a date field that is `null`, an invalid
      Date or the epoch, or an amount that is NaN, drops the row. */
  lemma RowDropped(row: string)
    requires ParseExecDate(Some(DateField(row))).Null?
             || ParseExecDate(Some(DateField(row))).time.None?
             || ParseExecDate(Some(DateField(row))).time == Some(0)
             || ParseEuroAmount(AmountField(row)).None?
    ensures ParseRow(row) == None
  {
  }

  /** What one line of the file contributes: nothing when it is blank or
      when its row is dropped. */
  function LineEvents(line: string): (r: seq<ExecEvent>)
    ensures |r| <= 1
  {
    var row := Trim(line);
    if row == "" then []
    else match ParseRow(row)
      case None => []
      case Some(e) => [e]
  }

  /** What `read` contributes for each of `lines`, in order. */
  function Collected<T>(lines: seq<string>, read: string -> seq<T>): (r: seq<T>)
    decreases |lines|
  {
    if |lines| == 0 then []
    else Collected(lines[..|lines| - 1], read) + read(lines[|lines| - 1])
  }

  lemma CollectedStep<T>(lines: seq<string>, i: int, read: string -> seq<T>)
    requires 1 <= i < |lines|
    ensures Collected(lines[1..i + 1], read) == Collected(lines[1..i], read) + read(lines[i])
  {
    assert lines[1..i + 1][..i - 1] == lines[1..i];
  }

  /** Everything collected comes from some line. */
  lemma {:induction false} CollectedFrom<T>(lines: seq<string>, read: string -> seq<T>, x: T)
    requires x in Collected(lines, read)
    ensures exists j :: 0 <= j < |lines| && x in read(lines[j])
    decreases |lines|
  {
    var n := |lines| - 1;
    if x in read(lines[n]) {
    } else {
      CollectedFrom(lines[..n], read, x);
      var j :| 0 <= j < n && x in read(lines[..n][j]);
      assert lines[..n][j] == lines[j];
    }
  }

  /** The lines after the header of the trimmed file. */
  function DataLines(text: string): seq<string> {
    Split(Trim(text), '\n')[1..]
  }

  /** The row loop: from index 1 (the header is skipped) to the end, the
      events `read` finds in each row, appended in file order. */
  method CollectRows<T>(rows: seq<string>, read: string -> seq<T>) returns (kept: seq<T>)
    requires |rows| >= 1
    ensures kept == Collected(rows[1..], read)
  {
    kept := [];
    var i := 1;
    while i < |rows|
      invariant 1 <= i <= |rows|
      invariant kept == Collected(rows[1..i], read)
    {
      CollectedStep(rows, i, read);
      kept := kept + read(rows[i]);
      i := i + 1;
    }
    assert rows[1..i] == rows[1..];
  }

  /** The execution rows, read in file order and then sorted by date with
      a stable sort. */
  method ParseExecRows(text: string) returns (events: seq<ExecEvent>)
    ensures SortedBy(events, EventDate)
    ensures multiset(events) == multiset(Collected(DataLines(text), LineEvents))
    ensures forall k :: WithKey(events, EventDate, k) == WithKey(Collected(DataLines(text), LineEvents), EventDate, k)
    ensures forall i :: 0 <= i < |events| ==> events[i].date != 0
  {
    var rows := Split(Trim(text), '\n');
    var kept := CollectRows(rows, LineEvents);
    events := SortBy(kept, EventDate);
    SortBySorted(kept, EventDate);
    forall k
      ensures WithKey(events, EventDate, k) == WithKey(kept, EventDate, k)
    {
      SortByStable(kept, EventDate, k);
    }
    forall i | 0 <= i < |events|
      ensures events[i].date != 0
    {
      KeptDates(rows[1..], events[i]) by {
        assert events[i] in multiset(kept);
      }
    }
  }

  /** Every kept event has a non-zero date. */
  lemma KeptDates(lines: seq<string>, e: ExecEvent)
    requires e in Collected(lines, LineEvents)
    ensures e.date != 0
  {
    CollectedFrom(lines, LineEvents, e);
    var j :| 0 <= j < |lines| && e in LineEvents(lines[j]);
  }

  /** A row written as `DD/MM/YYYY time;amount` is read as the payment at
      that local date, for the amount written. */
  lemma RowOfRendering(d: string, m: string, y: string, dv: int, mv: int, yv: int,
                       time: string, units: nat, cents: nat, t: int)
    requires |y| >= 1 && |m| >= 1 && |d| >= 1
    requires AllDigits(y) && AllDigits(m) && AllDigits(d)
    requires DigitsValue(y) == yv && DigitsValue(m) == mv && DigitsValue(d) == dv
    requires ';' !in time && cents < 100
    requires LocalDate(yv, mv - 1, dv) == Some(t) && t != 0
    ensures ParseRow(d + "/" + m + "/" + y + " " + time + ";" + EuroText(units, cents))
              == Some(ExecEvent(t, units as real + cents as real / 100.0))
  {
    var date := d + "/" + m + "/" + y + " " + time;
    var amount := EuroText(units, cents);
    var v := units as real + cents as real / 100.0;
    RowOfFields(date, amount, t, v) by {
      RowFields(date, amount) by {
        DigitsHaveNo(d, ';'); DigitsHaveNo(m, ';'); DigitsHaveNo(y, ';');
        EuroTextAlphabet(units, cents, ';');
      }
      ParseExecDigits(d, m, y, dv, mv, yv, time);
      EuroRoundTrip(units, cents);
    }
  }

  lemma RowFields(date: string, amount: string)
    requires ';' !in date && ';' !in amount
    ensures Split(date + ";" + amount, ';') == [date, amount]
  {
    SplitAfterPiece(date, ';', amount);
    SplitWithoutSeparator(amount, ';');
  }

  lemma RowOfFields(date: string, amount: string, t: int, v: real)
    requires Split(date + ";" + amount, ';') == [date, amount]
    requires ParseExecDate(Some(date)) == DateOf(Some(t)) && t != 0
    requires ParseEuroAmount(Some(amount)).Some? && ParseEuroAmount(Some(amount)).value == v
    ensures ParseRow(date + ";" + amount) == Some(ExecEvent(t, v))
  {
  }

  /** A row without `;` has no amount field, which counts as 0 euros. */
  lemma RowWithoutAmount(row: string, t: int)
    requires ';' !in row
    requires ParseExecDate(Some(row)) == DateOf(Some(t)) && t != 0
    ensures ParseRow(row) == Some(ExecEvent(t, 0.0))
  {
    RowOfOneField(row, t) by {
      SplitWithoutSeparator(row, ';');
    }
  }

  lemma RowOfOneField(row: string, t: int)
    requires Split(row, ';') == [row]
    requires ParseExecDate(Some(row)) == DateOf(Some(t)) && t != 0
    ensures ParseRow(row) == Some(ExecEvent(t, 0.0))
  {
    var parts := Split(row, ';');
    assert parts[0] == row && |parts| < 2;
    assert ParseEuroAmount(None) == Some(0.0);
  }

  /** A date at the epoch itself is falsy and drops the row. */
  lemma EpochDateDropped(date: string, amount: string)
    requires Split(date + ";" + amount, ';') == [date, amount]
    requires ParseExecDate(Some(date)) == DateOf(Some(0))
    ensures ParseRow(date + ";" + amount) == None
  {
  }
}

=== FILE: ingest.dfy ===
/** Ingestion in `initApp`: every feature gets a timestamp from its `fecha`
    property and, when it has no `id`, a generated `gen_<n>` id; features
    whose timestamp is NaN are dropped and the rest are sorted by timestamp. */
module Ingest {
  import opened Options
  import opened Numbers
  import opened Calendar
  import opened Dates
  import opened Sorting

  /** The properties of a GeoJSON feature the engine reads; a property the
      feature lacks is `None`. `titularAlt` is the upper-case `TITULAR`
      spelling. */
  datatype Feature = Feature(
    id: Option<string>,
    fecha: Option<string>,
    titular: Option<string>,
    titularAlt: Option<string>,
    importe: Option<real>)

  /** `f.properties.id` is truthy: present and not empty. */
  predicate HasId(f: Feature) {
    f.id.Some? && f.id.value != ""
  }

  /** A feature after the `map` step: its `_timestamp` (`None` is NaN) and
      its `_uniqueId`, set only on features without an id. */
  datatype Stamped = Stamped(feature: Feature, time: Option<int>, uniqueId: Option<string>)

  /** A feature that survived the `filter` step: its timestamp is a number. */
  datatype Record = Record(feature: Feature, time: int, uniqueId: Option<string>)

  function RecordTime(r: Record): int {
    r.time
  }

  function RecordUniqueId(r: Record): Option<string> {
    r.uniqueId
  }

  function StampedUniqueId(s: Stamped): Option<string> {
    s.uniqueId
  }

  /** `'gen_' + idCounter`. */
  function GeneratedId(n: nat): string {
    "gen_" + NatToString(n)
  }

  /** `_timestamp`: the time of the parsed date, NaN when the parser gives
      `null` or an invalid date. A Date's time value always lies within
      `MaxTime` in magnitude, so anything else the engine reports is NaN. */
  function TimeOf(f: Feature, engine: string -> Option<int>): (t: Option<int>)
    ensures t.Some? ==> -MaxTime <= t.value <= MaxTime
  {
    match ParseDate(f.fecha, engine)
    case Null => None
    case DateOf(t) => if t.Some? && -MaxTime <= t.value <= MaxTime then t else None
  }

  /** The `map` step, with `n` the current value of `idCounter`: the counter
      advances on every feature without an id, whatever its timestamp. */
  function Stamp(fs: seq<Feature>, timeOf: Feature -> Option<int>, n: nat): (r: seq<Stamped>)
    ensures |r| == |fs|
  {
    if |fs| == 0 then []
    else
      var f := fs[0];
      var uid := if HasId(f) then None else Some(GeneratedId(n));
      [Stamped(f, timeOf(f), uid)] + Stamp(fs[1..], timeOf, if HasId(f) then n else n + 1)
  }

  /** The `filter` step: keeps the features whose timestamp is a number. */
  function KeepTimed(ss: seq<Stamped>): (r: seq<Record>)
    ensures |r| <= |ss|
  {
    if |ss| == 0 then []
    else
      var s := ss[0];
      (if s.time.Some? then [Record(s.feature, s.time.value, s.uniqueId)] else []) + KeepTimed(ss[1..])
  }

  /** `featuresWithTime` after `sort`: stamped, filtered, then ordered by
      timestamp with ties in input order. `timeOf` is the timestamp of a
      feature, `f => TimeOf(f, engine)` in the application. */
  function Ingest(fs: seq<Feature>, timeOf: Feature -> Option<int>): seq<Record> {
    SortBy(KeepTimed(Stamp(fs, timeOf, 0)), RecordTime)
  }

  /** How many of the features have no id. */
  function IdlessCount(fs: seq<Feature>): nat {
    if |fs| == 0 then 0 else (if HasId(fs[0]) then 0 else 1) + IdlessCount(fs[1..])
  }

  /** The id generated for feature `i`: `gen_<k>` where `k` counts the
      id-less features before it, kept or dropped. */
  function UniqueIdAt(fs: seq<Feature>, i: nat): Option<string>
    requires i < |fs|
  {
    if HasId(fs[i]) then None else Some(GeneratedId(IdlessCount(fs[..i])))
  }

  /** What the `map` step attaches to feature `i`, stated directly. */
  function StampAt(fs: seq<Feature>, timeOf: Feature -> Option<int>, i: nat): Stamped
    requires i < |fs|
  {
    Stamped(fs[i], timeOf(fs[i]), UniqueIdAt(fs, i))
  }

  /** The `map` step attaches to each feature its own timestamp and the id
      numbered by the id-less features before it. */
  lemma {:induction false} StampIsStampAt(fs: seq<Feature>, timeOf: Feature -> Option<int>, n: nat, i: nat)
    requires i < |fs|
    ensures Stamp(fs, timeOf, n)[i]
         == Stamped(fs[i], timeOf(fs[i]),
                    if HasId(fs[i]) then None else Some(GeneratedId(n + IdlessCount(fs[..i]))))
    decreases i
  {
    if i > 0 {
      var n' := if HasId(fs[0]) then n else n + 1;
      StampIsStampAt(fs[1..], timeOf, n', i - 1);
      StampTail(fs, timeOf, n, i);
      IdlessCountTail(fs, i);
    }
  }

  /** Past the first feature, stamping continues on the rest with the
      counter the first feature left. */
  lemma StampTail(fs: seq<Feature>, timeOf: Feature -> Option<int>, n: nat, i: nat)
    requires 0 < i < |fs|
    ensures Stamp(fs, timeOf, n)[i] == Stamp(fs[1..], timeOf, if HasId(fs[0]) then n else n + 1)[i - 1]
  {
  }

  /** Counting the id-less features of a non-empty prefix starts with the
      first feature. */
  lemma IdlessCountTail(fs: seq<Feature>, i: nat)
    requires 0 < i <= |fs|
    ensures IdlessCount(fs[..i]) == (if HasId(fs[0]) then 0 else 1) + IdlessCount(fs[1..][..i - 1])
  {
    assert fs[..i][1..] == fs[1..][..i - 1];
  }

  /** The ids the `map` step generates are `gen_<m>` with `m >= n`. */
  lemma {:induction false} StampIdsFrom(fs: seq<Feature>, timeOf: Feature -> Option<int>, n: nat, i: nat)
    requires i < |fs| && Stamp(fs, timeOf, n)[i].uniqueId.Some?
    ensures exists m: nat :: m >= n && Stamp(fs, timeOf, n)[i].uniqueId == Some(GeneratedId(m))
    decreases i
  {
    if i > 0 {
      StampIdsFrom(fs[1..], timeOf, if HasId(fs[0]) then n else n + 1, i - 1);
    } else {
      assert Stamp(fs, timeOf, n)[i].uniqueId == Some(GeneratedId(n));
    }
  }

  /** Different counter values give different ids. */
  lemma GeneratedIdInjective(m: nat, n: nat)
    requires GeneratedId(m) == GeneratedId(n)
    ensures m == n
  {
    assert NatToString(m) == GeneratedId(m)[4..];
    assert NatToString(n) == GeneratedId(n)[4..];
    ToNumberOfRendering(m);
    ToNumberOfRendering(n);
  }

  /** No two features get the same generated id. */
  lemma {:induction false} StampDistinct(fs: seq<Feature>, timeOf: Feature -> Option<int>, n: nat)
    ensures DistinctTags(Stamp(fs, timeOf, n), StampedUniqueId)
    decreases |fs|
  {
    if |fs| > 0 {
      var n' := if HasId(fs[0]) then n else n + 1;
      var rest := Stamp(fs[1..], timeOf, n');
      StampDistinct(fs[1..], timeOf, n');
      var r := Stamp(fs, timeOf, n);
      assert r == [r[0]] + rest;
      forall j | 0 < j < |r| && r[0].uniqueId.Some?
        ensures r[0].uniqueId != r[j].uniqueId
      {
        if r[j].uniqueId.Some? {
          StampIdsFrom(fs[1..], timeOf, n', j - 1);
          var m: nat :| m >= n' && rest[j - 1].uniqueId == Some(GeneratedId(m));
          if GeneratedId(m) == GeneratedId(n) {
            GeneratedIdInjective(m, n);
          }
        }
      }
    }
  }

  /** Filtering keeps a subsequence, so distinct ids stay distinct. */
  lemma {:induction false} KeepTimedDistinct(ss: seq<Stamped>)
    requires DistinctTags(ss, StampedUniqueId)
    ensures DistinctTags(KeepTimed(ss), RecordUniqueId)
    decreases |ss|
  {
    if |ss| > 0 {
      assert DistinctTags(ss[1..], StampedUniqueId);
      KeepTimedDistinct(ss[1..]);
      var rest := KeepTimed(ss[1..]);
      if ss[0].time.Some? {
        var r := KeepTimed(ss);
        forall j | 0 < j < |r| && r[0].uniqueId.Some?
          ensures r[0].uniqueId != r[j].uniqueId
        {
          var k := KeepTimedFrom(ss[1..], rest[j - 1]);
          assert ss[k + 1].uniqueId == ss[1..][k].uniqueId;
        }
      }
    }
  }

  /** A kept record is a stamped feature with a numeric timestamp; `k` is
      its position. */
  lemma {:induction false} KeepTimedFrom(ss: seq<Stamped>, r: Record) returns (k: nat)
    requires r in KeepTimed(ss)
    ensures k < |ss| && ss[k].time == Some(r.time) && ss[k].feature == r.feature
         && ss[k].uniqueId == r.uniqueId
    decreases |ss|
  {
    var s := ss[0];
    if s.time.Some? && r == Record(s.feature, s.time.value, s.uniqueId) {
      k := 0;
    } else {
      var j := KeepTimedFrom(ss[1..], r);
      k := j + 1;
    }
  }

  /** Every stamped feature with a numeric timestamp is kept. */
  lemma {:induction false} KeepTimedKeeps(ss: seq<Stamped>, k: nat)
    requires k < |ss| && ss[k].time.Some?
    ensures Record(ss[k].feature, ss[k].time.value, ss[k].uniqueId) in KeepTimed(ss)
    decreases k
  {
    if k > 0 {
      KeepTimedKeeps(ss[1..], k - 1);
    }
  }

  /** The result of ingestion, stated directly: exactly the features with a
      numeric timestamp, each with its own timestamp and generated id,
      ordered by timestamp, ties in input order, with no generated id used
      twice. */
  lemma IngestSpec(fs: seq<Feature>, timeOf: Feature -> Option<int>)
    ensures SortedBy(Ingest(fs, timeOf), RecordTime)
    ensures multiset(Ingest(fs, timeOf)) == multiset(KeepTimed(Stamp(fs, timeOf, 0)))
    ensures forall r :: r in Ingest(fs, timeOf) <==>
              exists i :: 0 <= i < |fs| && r.feature == fs[i] && timeOf(fs[i]) == Some(r.time)
                       && r.uniqueId == UniqueIdAt(fs, i)
    ensures forall t :: WithKey(Ingest(fs, timeOf), RecordTime, t)
                     == WithKey(KeepTimed(Stamp(fs, timeOf, 0)), RecordTime, t)
    ensures DistinctTags(Ingest(fs, timeOf), RecordUniqueId)
  {
    var ss := Stamp(fs, timeOf, 0);
    var kept := KeepTimed(ss);
    SortBySorted(kept, RecordTime);
    forall t
      ensures WithKey(Ingest(fs, timeOf), RecordTime, t) == WithKey(kept, RecordTime, t)
    {
      SortByStable(kept, RecordTime, t);
    }
    StampDistinct(fs, timeOf, 0);
    KeepTimedDistinct(ss);
    SortByDistinct(kept, RecordTime, RecordUniqueId);
    forall r
      ensures r in Ingest(fs, timeOf) <==>
              exists i :: 0 <= i < |fs| && r.feature == fs[i] && timeOf(fs[i]) == Some(r.time)
                       && r.uniqueId == UniqueIdAt(fs, i)
    {
      IngestMember(fs, timeOf, r);
    }
  }

  lemma IngestMember(fs: seq<Feature>, timeOf: Feature -> Option<int>, r: Record)
    ensures r in Ingest(fs, timeOf) <==>
            exists i :: 0 <= i < |fs| && r.feature == fs[i] && timeOf(fs[i]) == Some(r.time)
                     && r.uniqueId == UniqueIdAt(fs, i)
  {
    var kept := KeepTimed(Stamp(fs, timeOf, 0));
    var out := Ingest(fs, timeOf);
    assert r in out <==> r in kept by {
      assert out == SortBy(kept, RecordTime);
      assert multiset(out) == multiset(kept);
      assert r in out <==> r in multiset(out);
    }
    if r in kept {
      var k := KeepTimedFrom(Stamp(fs, timeOf, 0), r);
      StampIsStampAt(fs, timeOf, 0, k);
      assert r.feature == fs[k] && timeOf(fs[k]) == Some(r.time) && r.uniqueId == UniqueIdAt(fs, k);
    }
    if exists i :: 0 <= i < |fs| && r.feature == fs[i] && timeOf(fs[i]) == Some(r.time) && r.uniqueId == UniqueIdAt(fs, i) {
      var i :| 0 <= i < |fs| && r.feature == fs[i] && timeOf(fs[i]) == Some(r.time) && r.uniqueId == UniqueIdAt(fs, i);
      StampAtKept(fs, timeOf, i);
    }
  }

  lemma StampAtKept(fs: seq<Feature>, timeOf: Feature -> Option<int>, i: nat)
    requires i < |fs| && timeOf(fs[i]).Some?
    ensures Record(fs[i], timeOf(fs[i]).value, UniqueIdAt(fs, i)) in KeepTimed(Stamp(fs, timeOf, 0))
  {
    var ss := Stamp(fs, timeOf, 0);
    StampIsStampAt(fs, timeOf, 0, i);
    assert ss[i] == StampAt(fs, timeOf, i);
    KeepTimedKeeps(ss, i);
  }

  /** Dropped features still consume a counter value: when the first of two
      id-less features has an unparsable date, the second is `gen_1`. */
  lemma DroppedFeatureConsumesId(a: Feature, b: Feature, timeOf: Feature -> Option<int>)
    requires !HasId(a) && !HasId(b)
    requires timeOf(a).None? && timeOf(b).Some?
    ensures Ingest([a, b], timeOf) == [Record(b, timeOf(b).value, Some("gen_1"))]
  {
    var x := Record(b, timeOf(b).value, Some("gen_1"));
    assert [a, b][1..] == [b];
    assert Stamp([b], timeOf, 1) == [Stamped(b, timeOf(b), Some(GeneratedId(1)))];
    assert GeneratedId(1) == "gen_1" by {
      assert NatToString(1) == [DigitChar(1)];
    }
    var ss := Stamp([a, b], timeOf, 0);
    assert ss == [Stamped(a, timeOf(a), Some(GeneratedId(0)))] + [Stamped(b, timeOf(b), Some("gen_1"))];
    assert ss[1..][1..] == [];
    assert KeepTimed(ss) == [x];
    assert SortBy([x], RecordTime) == Insert(x, [], RecordTime);
  }

  /** A feature whose `fecha` is missing or empty is dropped. */
  lemma MissingDateDropped(f: Feature, engine: string -> Option<int>)
    requires f.fecha.None? || f.fecha == Some("")
    ensures Ingest([f], g => TimeOf(g, engine)) == []
  {
    assert TimeOf(f, engine).None?;
    assert Stamp([f], g => TimeOf(g, engine), 0)[1..] == [];
  }
}

=== FILE: markers.dfy ===
/** The markers of `updateMap` and `createMarker`: which records have a
    marker on the map (`activeMarkers`, keyed by record id), how the set is
    brought in line with the visible records, and the size tier a marker
    gets from the record's amount. */
module Markers {
  import opened Options
  import opened Ingest

  /** `feature.properties.id || feature.properties._uniqueId`. Ingestion
      gives every record without an id a generated one, so the empty
      fallback is never reached for ingested records. */
  function MarkerId(r: Record): string {
    if HasId(r.feature) then r.feature.id.value
    else if r.uniqueId.Some? then r.uniqueId.value
    else ""
  }

  /** `visibleIds`: the ids of the visible records. */
  function VisibleIds(vis: seq<Record>): set<string> {
    set i | 0 <= i < |vis| :: MarkerId(vis[i])
  }

  /** The first visible record with id `id`: the one whose marker is
      created when several share it. */
  function FirstWithId(vis: seq<Record>, id: string): (r: Record)
    requires id in VisibleIds(vis)
    ensures r in vis && MarkerId(r) == id
    ensures exists i :: 0 <= i < |vis| && vis[i] == r && forall j :: 0 <= j < i ==> MarkerId(vis[j]) != id
  {
    if MarkerId(vis[0]) == id then vis[0]
    else
      assert id in VisibleIds(vis[1..]) by {
        var i :| 0 <= i < |vis| && MarkerId(vis[i]) == id;
        assert vis[1..][i - 1] == vis[i];
      }
      var r := FirstWithId(vis[1..], id);
      FirstAfterHead(vis, id, r);
      r
  }

  /** A record that is first with its id among all but the head is first
      in the whole sequence when the head has another id. */
  lemma FirstAfterHead(vis: seq<Record>, id: string, r: Record)
    requires |vis| > 0 && MarkerId(vis[0]) != id
    requires exists i :: 0 <= i < |vis| - 1 && vis[1..][i] == r && forall j :: 0 <= j < i ==> MarkerId(vis[1..][j]) != id
    ensures exists i :: 0 <= i < |vis| && vis[i] == r && forall j :: 0 <= j < i ==> MarkerId(vis[j]) != id
  {
    var i :| 0 <= i < |vis| - 1 && vis[1..][i] == r && forall j :: 0 <= j < i ==> MarkerId(vis[1..][j]) != id;
    assert vis[i + 1] == r;
    forall j | 0 <= j < i + 1
      ensures MarkerId(vis[j]) != id
    {
      if j > 0 {
        assert vis[j] == vis[1..][j - 1];
      }
    }
  }

  /** The `forEach` over the visible records: a marker is created for each
      id that is not active yet; active ones are left alone. */
  function AddMissing(active: map<string, Record>, vis: seq<Record>): map<string, Record>
    decreases |vis|
  {
    if |vis| == 0 then active
    else
      var id := MarkerId(vis[0]);
      AddMissing(if id in active then active else active[id := vis[0]], vis[1..])
  }

  /** The marker update of `updateMap`: with `hasInteracted`, add markers
      for the visible records that lack one; then, in every case, delete
      the markers whose id is not visible. */
  function UpdateMarkers(active: map<string, Record>, vis: seq<Record>, interacted: bool): (r: map<string, Record>)
    ensures r.Keys == if interacted then VisibleIds(vis) else {}
    ensures forall id :: id in r && id in active ==> r[id] == active[id]
    ensures forall id :: id in r && id !in active ==> r[id] == FirstWithId(vis, id)
  {
    var ids := if interacted then VisibleIds(vis) else {};
    var added := if interacted then AddMissing(active, vis) else active;
    AddMissingSpec(active, vis);
    map id | id in added && id in ids :: added[id]
  }

  /** Adding keeps every active marker and creates one for each new id,
      from the first visible record carrying it. */
  lemma {:induction false} AddMissingSpec(active: map<string, Record>, vis: seq<Record>)
    ensures AddMissing(active, vis).Keys == active.Keys + VisibleIds(vis)
    ensures forall id :: id in active ==> AddMissing(active, vis)[id] == active[id]
    ensures forall id :: id in AddMissing(active, vis) && id !in active ==>
              AddMissing(active, vis)[id] == FirstWithId(vis, id)
    decreases |vis|
  {
    if |vis| > 0 {
      var id := MarkerId(vis[0]);
      var next := if id in active then active else active[id := vis[0]];
      AddMissingSpec(next, vis[1..]);
      assert VisibleIds(vis) == {id} + VisibleIds(vis[1..]) by {
        forall x | x in VisibleIds(vis) ensures x in {id} + VisibleIds(vis[1..]) {
          var i :| 0 <= i < |vis| && MarkerId(vis[i]) == x;
          if i > 0 {
            assert vis[1..][i - 1] == vis[i];
          }
        }
        forall x | x in VisibleIds(vis[1..]) ensures x in VisibleIds(vis) {
          var i :| 0 <= i < |vis[1..]| && MarkerId(vis[1..][i]) == x;
          assert vis[i + 1] == vis[1..][i];
        }
      }
      forall x | x in AddMissing(active, vis) && x !in active
        ensures AddMissing(active, vis)[x] == FirstWithId(vis, x)
      {
        if x != id {
          assert x in VisibleIds(vis[1..]);
        }
      }
    }
  }

  /** Without interaction no marker is shown, whatever is visible. */
  lemma NoMarkersBeforeInteraction(active: map<string, Record>, vis: seq<Record>)
    ensures UpdateMarkers(active, vis, false) == map[]
  {
  }

  /** Repeating the update for the same records changes nothing. */
  lemma UpdateMarkersIdempotent(active: map<string, Record>, vis: seq<Record>, interacted: bool)
    ensures UpdateMarkers(UpdateMarkers(active, vis, interacted), vis, interacted)
         == UpdateMarkers(active, vis, interacted)
  {
    var r1 := UpdateMarkers(active, vis, interacted);
    var r2 := UpdateMarkers(r1, vis, interacted);
    assert r2.Keys == r1.Keys;
    assert forall id :: id in r2 ==> r2[id] == r1[id];
  }

  /** Every marker shown belongs to a visible record carrying its id. */
  lemma MarkersAreVisible(active: map<string, Record>, vis: seq<Record>, interacted: bool)
    requires forall id :: id in active ==> MarkerId(active[id]) == id
    ensures forall id :: id in UpdateMarkers(active, vis, interacted) ==>
              MarkerId(UpdateMarkers(active, vis, interacted)[id]) == id
  {
  }

  /** The size tiers of `createMarker`. */
  datatype Tier = XL | L | M | S

  /** `importe` with `|| 0`: a missing amount counts as zero. */
  function Importe(f: Feature): real {
    if f.importe.Some? then f.importe.value else 0.0
  }

  /** The tier for an amount: at least one million, one hundred thousand,
      ten thousand, or less. */
  function TierOf(importe: real): Tier {
    if importe >= 1000000.0 then XL
    else if importe >= 100000.0 then L
    else if importe >= 10000.0 then M
    else S
  }

  /** The marker radius of each tier. */
  function Radius(t: Tier): int {
    match t
    case XL => 12
    case L => 9
    case M => 6
    case S => 3
  }

  /** The map pane of each tier. */
  function PaneName(t: Tier): string {
    match t
    case XL => "markerPaneXL"
    case L => "markerPaneL"
    case M => "markerPaneM"
    case S => "markerPaneS"
  }

  /** The stacking order of each pane: smaller markers lie on top. */
  function PaneZIndex(t: Tier): int {
    match t
    case XL => 500
    case L => 501
    case M => 502
    case S => 503
  }

  /** Each tier covers one interval of amounts. */
  lemma TierIntervals(a: real)
    ensures TierOf(a) == XL <==> 1000000.0 <= a
    ensures TierOf(a) == L <==> 100000.0 <= a < 1000000.0
    ensures TierOf(a) == M <==> 10000.0 <= a < 100000.0
    ensures TierOf(a) == S <==> a < 10000.0
  {
  }

  /** A larger amount never gets a smaller marker, and never lies above a
      smaller amount's marker. */
  lemma TierMonotone(a: real, b: real)
    requires a <= b
    ensures Radius(TierOf(a)) <= Radius(TierOf(b))
    ensures PaneZIndex(TierOf(a)) >= PaneZIndex(TierOf(b))
  {
  }

  /** Different tiers go to different panes. */
  lemma PanesDistinct(t: Tier, u: Tier)
    requires t != u
    ensures PaneName(t) != PaneName(u) && PaneZIndex(t) != PaneZIndex(u)
  {
  }
}

=== FILE: numbers.dfy ===
/** The number conversions the engine applies to text: `parseInt(s)`,
    the implicit `ToNumber(s)` the Date constructor and `-` apply to a string,
    `parseFloat(s)`, and `String(n)` for a natural number. Only the decimal
    grammar is modelled; values are exact integers and reals, not doubles. */
module Numbers {
  import opened Options
  import opened Text

  predicate IsDigit(c: char) {
    '0' <= c <= '9'
  }

  predicate AllDigits(s: string) {
    forall i :: 0 <= i < |s| ==> IsDigit(s[i])
  }

  function DigitValue(c: char): nat
    requires IsDigit(c)
  {
    (c as int) - ('0' as int)
  }

  function DigitChar(d: nat): (c: char)
    requires d < 10
    ensures IsDigit(c) && DigitValue(c) == d
  {
    (('0' as int) + d) as char
  }

  /** The value of a string of decimal digits, most significant first. */
  function DigitsValue(s: string): nat
    requires AllDigits(s)
  {
    if |s| == 0 then 0 else 10 * DigitsValue(s[..|s| - 1]) + DigitValue(s[|s| - 1])
  }

  /** `String(n)`: the shortest decimal rendering, which reads back as `n`. */
  function NatToString(n: nat): (s: string)
    ensures |s| >= 1 && AllDigits(s)
    ensures DigitsValue(s) == n
    ensures s[0] == '0' ==> n == 0
  {
    if n < 10 then [DigitChar(n)]
    else
      var s := NatToString(n / 10) + [DigitChar(n % 10)];
      assert s[..|s| - 1] == NatToString(n / 10);
      s
  }

  /** Length of the longest run of digits at the start of `s`. */
  function DigitPrefix(s: string): (k: nat)
    ensures k <= |s| && AllDigits(s[..k])
    ensures k == |s| || !IsDigit(s[k])
  {
    if |s| > 0 && IsDigit(s[0]) then
      var k := 1 + DigitPrefix(s[1..]);
      assert s[..k] == [s[0]] + s[1..][..k - 1];
      k
    else 0
  }

  /** An optional leading sign, as both `parseInt` and `ToNumber` accept it:
      whether it was `-`, and the text after it. */
  function StripSign(s: string): (r: (bool, string))
    ensures r.1 == s || (|s| > 0 && (s[0] == '-' || s[0] == '+') && r.1 == s[1..])
    ensures r.0 <==> |s| > 0 && s[0] == '-'
  {
    if |s| > 0 && s[0] == '-' then (true, s[1..])
    else if |s| > 0 && s[0] == '+' then (false, s[1..])
    else (false, s)
  }

  function Signed(negative: bool, n: nat): int {
    if negative then -(n as int) else n
  }

  /** `parseInt(s)` with no radix: leading white space, an optional sign, then
      the longest run of decimal digits; `None` (NaN) when there is no digit. */
  function ParseInt(s: string): (r: Option<int>)
    ensures r.None? <==> DigitPrefix(StripSign(TrimStart(s)).1) == 0
  {
    var (negative, u) := StripSign(TrimStart(s));
    var k := DigitPrefix(u);
    if k == 0 then None else Some(Signed(negative, DigitsValue(u[..k])))
  }

  /** `ToNumber(s)` restricted to integers: a blank string is 0, an optionally
      signed run of digits between white space is its value, anything else
      is NaN. */
  function ToNumber(s: string): (r: Option<int>)
    ensures Trim(s) == "" ==> r == Some(0)
  {
    var t := Trim(s);
    if |t| == 0 then Some(0)
    else
      var (negative, u) := StripSign(t);
      if |u| > 0 && AllDigits(u) then Some(Signed(negative, DigitsValue(u))) else None
  }

  /** The exact value of `intDigits.fracDigits`. */
  function DecimalValue(intDigits: string, fracDigits: string): real
    requires AllDigits(intDigits) && AllDigits(fracDigits)
  {
    DigitsValue(intDigits) as real + FractionValue(fracDigits)
  }

  /** The value of the digits after a decimal point, `0.d1d2...`: each digit
      counts a tenth of the one before it. */
  function FractionValue(s: string): (r: real)
    requires AllDigits(s)
    ensures 0.0 <= r < 1.0
  {
    if |s| == 0 then 0.0 else (DigitValue(s[0]) as real + FractionValue(s[1..])) / 10.0
  }

  /** `parseFloat(s)` on the decimal grammar: leading white space, an optional
      sign, digits, optionally a point and more digits; the longest such
      prefix is read and the rest ignored. `None` (NaN) when no digit is read. */
  function ParseFloat(s: string): (r: Option<real>)
    ensures r.None? <==> UnsignedDecimal(StripSign(TrimStart(s)).1).None?
  {
    var (negative, u) := StripSign(TrimStart(s));
    match UnsignedDecimal(u)
    case None => None
    case Some(v) => Some(if negative then -v else v)
  }

  /** The unsigned part of `parseFloat`'s grammar: `digits [. digits]` or
      `. digits`, read as a longest prefix. */
  function UnsignedDecimal(u: string): (r: Option<real>)
    ensures r.Some? ==> r.value >= 0.0
  {
    var k := DigitPrefix(u);
    var frac := if k < |u| && u[k] == '.' then LeadingDigits(u[k + 1..]) else "";
    if k == 0 && |frac| == 0 then None else Some(DecimalValue(u[..k], frac))
  }


  /** The longest run of digits at the start of `s`. */
  function LeadingDigits(s: string): (r: string)
    ensures AllDigits(r) && |r| == DigitPrefix(s) && r == s[..|r|]
  {
    s[..DigitPrefix(s)]
  }

  /** `parseInt` reads back what `String(n)` wrote, whatever non-digit follows
      (except the `x` that would make `0x` a hexadecimal prefix). */
  lemma ParseIntOfRendering(n: nat, rest: string)
    requires |rest| == 0 || !IsDigit(rest[0])
    requires n == 0 ==> |rest| == 0 || (rest[0] != 'x' && rest[0] != 'X')
    ensures ParseInt(NatToString(n) + rest) == Some(n)
  {
    ParseIntOfDigits(NatToString(n), rest);
  }

  /** `ToNumber` reads back what `String(n)` wrote. */
  lemma ToNumberOfRendering(n: nat)
    ensures ToNumber(NatToString(n)) == Some(n)
  {
    ToNumberOfDigits(NatToString(n));
  }

  /** The digit run at the front of `digits + rest` is exactly `digits`. */
  lemma {:induction false} DigitPrefixOfDigits(digits: string, rest: string)
    requires AllDigits(digits)
    requires |rest| == 0 || !IsDigit(rest[0])
    ensures DigitPrefix(digits + rest) == |digits|
    decreases |digits|
  {
    if |digits| > 0 {
      assert (digits + rest)[1..] == digits[1..] + rest;
      DigitPrefixOfDigits(digits[1..], rest);
    } else {
      assert digits + rest == rest;
    }
  }

  /** A string that starts with a digit has no white space or sign to skip. */
  lemma NothingToSkip(s: string)
    requires |s| > 0 && IsDigit(s[0])
    ensures StripSign(TrimStart(s)).1 == s
  {
    assert !IsSpace(s[0]);
  }

  /** `parseFloat` reads `a.b` as the decimal number it denotes. */
  lemma ParseFloatOfDecimal(a: string, b: string)
    requires |a| >= 1 && AllDigits(a) && AllDigits(b)
    ensures ParseFloat(a + "." + b) == Some(DecimalValue(a, b))
  {
    assert a + "." + b + "" == a + "." + b;
    ParseFloatOfDecimalPrefix(a, b, "");
  }

  /** `parseFloat` reads the longest decimal prefix `a.b` and ignores the
      text after it, when that text starts neither with a digit nor with an
      exponent mark. */
  lemma ParseFloatOfDecimalPrefix(a: string, b: string, rest: string)
    requires |a| >= 1 && AllDigits(a) && AllDigits(b)
    requires |rest| == 0 || (!IsDigit(rest[0]) && rest[0] != 'e' && rest[0] != 'E')
    ensures ParseFloat(a + "." + b + rest) == Some(DecimalValue(a, b))
  {
    var s := a + "." + b + rest;
    NothingToSkip(s);
    UnsignedDecimalOfDecimal(a, b, rest);
  }

  lemma UnsignedDecimalOfDecimal(a: string, b: string, rest: string)
    requires |a| + |b| >= 1 && AllDigits(a) && AllDigits(b)
    requires |rest| == 0 || !IsDigit(rest[0])
    ensures UnsignedDecimal(a + "." + b + rest) == Some(DecimalValue(a, b))
  {
    var s := a + "." + b + rest;
    assert s == a + ("." + b + rest);
    LeadingDigitsOf(a, "." + b + rest);
    assert DigitPrefix(s) == |a| && s[..|a|] == a;
    assert s[|a|] == '.' && s[|a| + 1..] == b + rest;
    LeadingDigitsOf(b, rest);
    assert UnsignedDecimal(s) == Some(DecimalValue(s[..|a|], LeadingDigits(s[|a| + 1..])));
  }

  /** The digit run at the front of `digits + rest` is `digits` itself. */
  lemma LeadingDigitsOf(digits: string, rest: string)
    requires AllDigits(digits)
    requires |rest| == 0 || !IsDigit(rest[0])
    ensures LeadingDigits(digits + rest) == digits
  {
    DigitPrefixOfDigits(digits, rest);
    assert (digits + rest)[..|digits|] == digits;
  }

  /** `parseFloat` reads a bare digit string as its integer value. */
  lemma ParseFloatOfDigits(a: string)
    requires |a| >= 1 && AllDigits(a)
    ensures ParseFloat(a) == Some(DigitsValue(a) as real)
  {
    NothingToSkip(a);
    UnsignedDecimalOfDigits(a);
  }

  lemma UnsignedDecimalOfDigits(a: string)
    requires |a| >= 1 && AllDigits(a)
    ensures UnsignedDecimal(a) == Some(DigitsValue(a) as real)
  {
    assert a + "" == a;
    LeadingDigitsOf(a, "");
    assert DecimalValue(a, "") == DigitsValue(a) as real;
  }

  /** `parseInt` reads a digit string as its value, whatever non-digit follows,
      except an `x` after a lone `0`, which would start a hexadecimal number. */
  lemma ParseIntOfDigits(a: string, rest: string)
    requires |a| >= 1 && AllDigits(a)
    requires |rest| == 0 || !IsDigit(rest[0])
    requires a == "0" ==> |rest| == 0 || (rest[0] != 'x' && rest[0] != 'X')
    ensures ParseInt(a + rest) == Some(DigitsValue(a) as int)
  {
    var s := a + rest;
    NothingToSkip(s);
    DigitPrefixOfDigits(a, rest);
    assert s[..|a|] == a;
  }

  /** `parseInt` reads a whole digit string as its value. */
  lemma ParseIntOfDigitString(a: string)
    requires |a| >= 1 && AllDigits(a)
    ensures ParseInt(a) == Some(DigitsValue(a) as int)
  {
    ParseIntOfDigits(a, "");
    assert a + "" == a;
  }

  /** `ToNumber` reads a digit string as its value. */
  lemma ToNumberOfDigits(a: string)
    requires |a| >= 1 && AllDigits(a)
    ensures ToNumber(a) == Some(DigitsValue(a) as int)
  {
    DigitNotSpace(a[0]);
    DigitNotSpace(a[|a| - 1]);
    TrimUntouched(a);
    assert StripSign(a) == (false, a);
  }

  /** No digit is white space. */
  lemma DigitNotSpace(c: char)
    requires IsDigit(c)
    ensures !IsSpace(c)
  {
  }
}

=== FILE: options.dfy ===
/** The optional-value type used across the model: `None` stands for JavaScript's
    `null`, `undefined` or `NaN`, whichever the modelled code produces. */
module Options {

  datatype Option<+T> = None | Some(value: T)
}

=== FILE: playback.dfy ===
/** The playback controls: what `initApp` sets up, what `updateMap` redraws
    for a step, and how the slider, the play button and the play timer move
    through the steps. The controller is an explicit state: the slider
    position, `isPlaying`, `hasInteracted` and the active markers. */
module Playback {
  import opened Options
  import opened Sorting
  import opened Calendar
  import opened Ingest
  import opened Timeline
  import opened Exec
  import opened Cumulative
  import opened Visibility
  import opened Markers
  import opened Chart

  /** What `initApp` computes once: the ingested records, the month steps
      and the budget per step. */
  datatype Env = Env(records: seq<Record>, steps: seq<int>, budget: seq<BudgetStep>)

  /** The controller: `slider.value`, `isPlaying`, `hasInteracted` and
      `activeMarkers`. */
  datatype Player = Player(index: int, playing: bool, interacted: bool, active: map<string, Record>)

  /** `monthlySteps[stepIndex]`; `None` is `undefined`, past either end. */
  function StepTime(env: Env, index: int): (t: Option<int>)
    ensures t.Some? <==> 0 <= index < |env.steps|
    ensures t.Some? ==> t.value == env.steps[index]
  {
    if 0 <= index < |env.steps| then Some(env.steps[index]) else None
  }

  /** The records visible at a step. */
  function Shown(env: Env, index: int): seq<Record> {
    Visible(env.records, StepTime(env, index))
  }

  /** The marker part of `updateMap(stepIndex)`: nothing happens without
      steps; otherwise the markers are brought in line with the records
      visible at the step. The slider position is not changed here. */
  function UpdateMap(env: Env, p: Player, index: int): (q: Player)
    ensures q.index == p.index && q.playing == p.playing && q.interacted == p.interacted
    ensures |env.steps| == 0 ==> q == p
    ensures |env.steps| > 0 ==> q.active.Keys == if p.interacted then VisibleIds(Shown(env, index)) else {}
  {
    if |env.steps| == 0 then p
    else p.(active := UpdateMarkers(p.active, Shown(env, index), p.interacted))
  }

  /** The slider's `input` handler: marks the interaction, moves to the
      chosen step and redraws. The range input only yields positions
      between 0 and `monthlySteps.length - 1`. */
  function SliderInput(env: Env, p: Player, v: int): (q: Player)
    requires 0 <= v < |env.steps| || v == 0
    ensures q.index == v && q.playing == p.playing && q.interacted
  {
    UpdateMap(env, p.(interacted := true, index := v), v)
  }

  /** `togglePlay`: flips `isPlaying`; the first time it starts playing it
      marks the interaction and redraws the current step. */
  function TogglePlay(env: Env, p: Player): (q: Player)
    ensures q.playing == !p.playing && q.index == p.index
    ensures q.interacted == (p.interacted || q.playing)
  {
    if !p.playing && !p.interacted then UpdateMap(env, p.(playing := true, interacted := true), p.index)
    else p.(playing := !p.playing)
  }

  /** One firing of the play timer (it only runs while playing): the next
      step while there is one, otherwise a `togglePlay` that pauses. */
  function Tick(env: Env, p: Player): Player {
    if !p.playing then p
    else if p.index < |env.steps| - 1 then UpdateMap(env, p.(index := p.index + 1), p.index + 1)
    else TogglePlay(env, p)
  }

  /** `n` firings of the timer. */
  function Ticks(env: Env, p: Player, n: nat): Player
    decreases n
  {
    if n == 0 then p else Ticks(env, Tick(env, p), n - 1)
  }

  /** What the controller keeps true: the slider stays on a step, playing
      implies an interaction, the markers are exactly those of the records
      visible at the slider's step once the user has interacted (none
      before), and every marker is a record carrying its key. */
  predicate Inv(env: Env, p: Player) {
    && 0 <= p.index && (p.index < |env.steps| || p.index == 0)
    && (p.playing ==> p.interacted)
    && p.active.Keys == (if p.interacted && |env.steps| > 0 then VisibleIds(Shown(env, p.index)) else {})
    && MarkersOf(env, p.active)
  }

  predicate MarkersOf(env: Env, active: map<string, Record>) {
    forall id :: id in active ==> MarkerId(active[id]) == id && active[id] in env.records
  }

  /** Redrawing keeps every marker a record carrying its key. */
  lemma UpdateMapMarkers(env: Env, p: Player, index: int)
    requires MarkersOf(env, p.active)
    ensures MarkersOf(env, UpdateMap(env, p, index).active)
  {
    if |env.steps| > 0 {
      var vis := Shown(env, index);
      var q := UpdateMap(env, p, index);
      forall id | id in q.active
        ensures MarkerId(q.active[id]) == id && q.active[id] in env.records
      {
        if id !in p.active {
          VisibleMember(env.records, StepTime(env, index), FirstWithId(vis, id));
        }
      }
    }
  }

  /** Redrawing the same step twice changes nothing. */
  lemma UpdateMapIdempotent(env: Env, p: Player, index: int)
    ensures UpdateMap(env, UpdateMap(env, p, index), index) == UpdateMap(env, p, index)
  {
    if |env.steps| > 0 {
      UpdateMarkersIdempotent(p.active, Shown(env, index), p.interacted);
    }
  }

  /** The slider keeps the invariant. */
  lemma SliderInputInv(env: Env, p: Player, v: int)
    requires Inv(env, p) && (0 <= v < |env.steps| || v == 0)
    ensures Inv(env, SliderInput(env, p, v))
  {
    UpdateMapMarkers(env, p.(interacted := true, index := v), v);
  }

  /** The play button keeps the invariant. */
  lemma TogglePlayInv(env: Env, p: Player)
    requires Inv(env, p)
    ensures Inv(env, TogglePlay(env, p))
  {
    if !p.playing && !p.interacted {
      UpdateMapMarkers(env, p.(playing := true, interacted := true), p.index);
    }
  }

  /** The timer keeps the invariant. */
  lemma TickInv(env: Env, p: Player)
    requires Inv(env, p)
    ensures Inv(env, Tick(env, p))
  {
    if !p.playing {
      assert Tick(env, p) == p;
    } else if p.index < |env.steps| - 1 {
      AdvanceInv(env, p);
    } else {
      PauseInv(env, p);
    }
  }

  /** A tick before the last step moves one step forward and redraws there,
      keeping the invariant. */
  lemma AdvanceInv(env: Env, p: Player)
    requires Inv(env, p) && p.playing && p.index < |env.steps| - 1
    ensures Inv(env, Tick(env, p))
  {
    var q := p.(index := p.index + 1);
    assert Tick(env, p) == UpdateMap(env, q, q.index);
    RedrawInv(env, q);
  }

  /** Redrawing at the slider's own step, from a state whose index is in
      range, whose playing implies interaction and whose markers are
      records carrying their keys, establishes the invariant. */
  lemma RedrawInv(env: Env, q: Player)
    requires 0 <= q.index < |env.steps| && (q.playing ==> q.interacted) && MarkersOf(env, q.active)
    ensures Inv(env, UpdateMap(env, q, q.index))
  {
    UpdateMapMarkers(env, q, q.index);
  }

  /** A tick at the last step pauses, keeping the invariant. */
  lemma PauseInv(env: Env, p: Player)
    requires Inv(env, p) && p.playing && p.index >= |env.steps| - 1
    ensures Inv(env, Tick(env, p))
  {
    TogglePlayInv(env, p);
  }

  /** Once the user has interacted, no control undoes it. */
  lemma InteractionSticks(env: Env, p: Player, v: int)
    requires p.interacted && (0 <= v < |env.steps| || v == 0)
    ensures SliderInput(env, p, v).interacted
    ensures TogglePlay(env, p).interacted
    ensures Tick(env, p).interacted
  {
  }

  /** The first press of play shows the markers of the current step at once. */
  lemma FirstPlayShowsMarkers(env: Env, p: Player)
    requires Inv(env, p) && !p.interacted && |env.steps| > 0
    ensures TogglePlay(env, p).playing && TogglePlay(env, p).interacted
    ensures TogglePlay(env, p).active.Keys == VisibleIds(Shown(env, p.index))
  {
  }

  /** A press of play after the first one only flips `isPlaying`. */
  lemma LaterToggleKeepsMarkers(env: Env, p: Player)
    requires p.interacted
    ensures TogglePlay(env, p) == p.(playing := !p.playing)
  {
  }

  /** While playing, a tick advances one step until the last step, where it
      pauses instead and leaves the markers alone. */
  lemma TickSteps(env: Env, p: Player)
    requires Inv(env, p) && p.playing
    ensures p.index < |env.steps| - 1 ==> Tick(env, p).index == p.index + 1 && Tick(env, p).playing
    ensures p.index >= |env.steps| - 1 ==> Tick(env, p) == p.(playing := false)
  {
  }

  /** Playing from step `i` for `n` ticks: the slider is at step
      `min(i + n, last)`, and still playing exactly while `i + n` is a step. */
  lemma {:induction false} TicksClosedForm(env: Env, p: Player, n: nat)
    requires 0 <= p.index < |env.steps| && p.playing
    ensures Ticks(env, p, n).index == if p.index + n < |env.steps| then p.index + n else |env.steps| - 1
    ensures Ticks(env, p, n).playing <==> p.index + n < |env.steps|
    decreases n
  {
    if n > 0 {
      var q := Tick(env, p);
      if q.playing {
        TicksClosedForm(env, q, n - 1);
      } else {
        PausedStays(env, q, n - 1);
      }
    }
  }

  /** The invariant holds however many times the timer fires. */
  lemma {:induction false} TicksInv(env: Env, p: Player, n: nat)
    requires Inv(env, p)
    ensures Inv(env, Ticks(env, p, n))
    decreases n
  {
    if n > 0 {
      TickInv(env, p);
      TicksInv(env, Tick(env, p), n - 1);
    }
  }

  /** A paused player ignores the timer. */
  lemma {:induction false} PausedStays(env: Env, p: Player, n: nat)
    requires !p.playing
    ensures Ticks(env, p, n) == p
    decreases n
  {
    if n > 0 {
      PausedStays(env, p, n - 1);
    }
  }

  /** The redraw at step 0 that ends `initApp` shows no markers and starts
      the controller in its invariant. */
  lemma FirstRedraw(env: Env)
    ensures UpdateMap(env, Player(0, false, false, map[]), 0) == Player(0, false, false, map[])
    ensures Inv(env, Player(0, false, false, map[]))
  {
    NoMarkersBeforeInteraction(map[], Shown(env, 0));
  }

  /** The month steps are in order, as the budget merge needs. */
  lemma StepsAscending(minT: Option<int>, maxT: Option<int>)
    ensures Ascending(MonthlySteps(minT, maxT))
  {
    forall i, j | 0 <= i < j < |MonthlySteps(minT, maxT)|
      ensures MonthlySteps(minT, maxT)[i] <= MonthlySteps(minT, maxT)[j]
    {
      StepsIncreasing(minT, maxT, i, j);
    }
  }

  /** A payment made after the first midnight of the month of step `i`
      (a payment on the 15th, say) is left out of the budget at step `i`
      and every earlier step, and counted at step `i + 1` and every later
      one, wherever it stands among the other payments. */
  lemma PaymentCountedNextStep(minT: Option<int>, maxT: Option<int>, pre: seq<ExecEvent>, e: ExecEvent, post: seq<ExecEvent>, i: int)
    requires 0 <= i < |MonthlySteps(minT, maxT)|
    requires MonthOf(e.date) == MonthOf(MonthlySteps(minT, maxT)[i]) && e.date != MonthlySteps(minT, maxT)[i]
    ensures var steps := MonthlySteps(minT, maxT);
            forall j :: 0 <= j <= i ==>
              Budget(steps, pre + [e] + post)[j].total == Budget(steps, pre + post)[j].total
    ensures var steps := MonthlySteps(minT, maxT);
            forall j :: i < j < |steps| ==>
              Budget(steps, pre + [e] + post)[j].total == Budget(steps, pre + post)[j].total + e.amount
  {
    var steps := MonthlySteps(minT, maxT);
    forall j | 0 <= j < |steps|
      ensures Budget(steps, pre + [e] + post)[j].total == Budget(steps, pre + post)[j].total + (if j <= i then 0.0 else e.amount)
    {
      PaymentSide(minT, maxT, e, i, j);
      BudgetWithPayment(steps, pre, e, post, j);
    }
  }

  /** Steps up to `i` come before a payment inside step `i`'s month, after
      its first midnight; later steps come on or after it. */
  lemma PaymentSide(minT: Option<int>, maxT: Option<int>, e: ExecEvent, i: int, j: int)
    requires 0 <= i < |MonthlySteps(minT, maxT)| && 0 <= j < |MonthlySteps(minT, maxT)|
    requires MonthOf(e.date) == MonthOf(MonthlySteps(minT, maxT)[i]) && e.date != MonthlySteps(minT, maxT)[i]
    ensures e.date <= MonthlySteps(minT, maxT)[j] <==> i < j
  {
    var steps := MonthlySteps(minT, maxT);
    StepsRiseByMonth(minT, maxT, i);
    StepsRiseByMonth(minT, maxT, j);
    var ki, kj := MonthOf(steps[i]), MonthOf(steps[j]);
    assert ki < kj <==> i < j;
    MonthSide(ki, kj, e.date);
  }

  /** An instant in month `ki`, after its first midnight, is on or before
      the first midnight of month `kj` exactly when `kj` is a later month. */
  lemma MonthSide(ki: int, kj: int, t: int)
    requires MonthOf(t) == ki && t != MonthStart(ki)
    ensures t <= MonthStart(kj) <==> ki < kj
  {
    if kj < ki {
      MonthStartOrder(kj, ki);
    } else if kj > ki + 1 {
      MonthStartOrder(ki + 1, kj);
    }
  }

  /** Which of the two charts exist: `chartInstance` and
      `budgetChartInstance` stay `null` until `initChart` and
      `initBudgetChart` run, and each is created only when its container is
      on the page. */
  datatype Charts = Charts(holders: bool, budget: bool)

  /** `initApp` together with the state it leaves the controls and the
      charts in. */
  datatype App = App(env: Env, player: Player, charts: Charts)

  /** `initApp`: ingestion (stopping when no record has a date), the month
      steps from June 2017 through the month after the latest record (or
      after June 2017), the budget per step, and the first redraw at step 0,
      which shows no markers because nobody has interacted yet and draws no
      chart because neither exists yet; the charts are created afterwards,
      each when its container (`holderPane`, `budgetPane`) is present. */
  method InitApp(features: seq<Feature>, timeOf: Feature -> Option<int>, events: seq<ExecEvent>,
                 holderPane: bool, budgetPane: bool) returns (app: Option<App>)
    ensures app.None? <==> Ingest.Ingest(features, timeOf) == []
    ensures app.Some? ==> app.value.env.records == Ingest.Ingest(features, timeOf)
    ensures app.Some? ==> var records := app.value.env.records;
              app.value.env.steps == MonthlySteps(Some(ForcedStart()), Some(ClampedEnd(records[|records| - 1].time)))
    ensures app.Some? ==> |app.value.env.budget| == |app.value.env.steps|
    ensures app.Some? && SortedBy(events, EventDate) ==> app.value.env.budget == Budget(app.value.env.steps, events)
    ensures app.Some? ==> app.value.player == Player(0, false, false, map[])
    ensures app.Some? ==> Inv(app.value.env, app.value.player)
    ensures app.Some? ==> app.value.charts == Charts(holderPane, budgetPane)
  {
    var records := Ingest.Ingest(features, timeOf);
    if |records| == 0 {
      return None;
    }
    var maxTime := ClampedEnd(records[|records| - 1].time);
    var steps := GenerateMonthlySteps(Some(ForcedStart()), Some(maxTime));
    StepsAscending(Some(ForcedStart()), Some(maxTime));
    var budget := CumulativeTotals(steps, events);
    var env := Env(records, steps, budget);
    var player := UpdateMap(env, Player(0, false, false, map[]), 0);
    FirstRedraw(env);
    app := Some(App(env, player, Charts(holderPane, budgetPane)));
  }

  /** What `updateMap(stepIndex)` draws besides the markers: the visible
      records, the holder counts of the chart and the budget chart; a chart
      that does not exist draws nothing (`None`). */
  datatype Frame = Frame(visible: seq<Record>, counts: Option<map<string, nat>>, budget: Option<BudgetView>)

  /** `None` is the early return when there are no steps. The holder chart
      returns early while it does not exist, the budget chart also on an
      index outside the budget. */
  function Render(env: Env, index: int, upper: string -> string, charts: Charts): (f: Option<Frame>)
    ensures f.None? <==> |env.steps| == 0
    ensures f.Some? ==> (f.value.counts.Some? <==> charts.holders)
    ensures f.Some? ==> (f.value.budget.Some? <==> charts.budget && 0 <= index < |env.budget|)
  {
    if |env.steps| == 0 then None
    else
      var vis := Shown(env, index);
      var counts := if charts.holders then Some(TitularCounts(vis, upper)) else None;
      Some(Frame(vis, counts, BudgetChart(env.budget, index, charts.budget)))
  }

  /** The first redraw of `initApp` comes before either chart exists: it
      shows the records of June 2017 but no holder counts and no budget. */
  lemma FirstFrameWithoutCharts(env: Env, upper: string -> string)
    requires |env.steps| > 0
    ensures Render(env, 0, upper, Charts(false, false)).Some?
    ensures Render(env, 0, upper, Charts(false, false)).value.visible == Shown(env, 0)
    ensures Render(env, 0, upper, Charts(false, false)).value.counts.None?
    ensures Render(env, 0, upper, Charts(false, false)).value.budget.None?
  {
  }

  /** At a step of an environment built from ordered payments, with both
      charts created, the frame shows exactly the records dated on or before
      the step, the holder counts of those records, and a KPI equal to
      everything paid up to it. */
  lemma RenderAtStep(env: Env, events: seq<ExecEvent>, index: int, upper: string -> string, r: Record)
    requires env.budget == Budget(env.steps, events) && 0 <= index < |env.steps|
    ensures Render(env, index, upper, Charts(true, true)).Some?
    ensures r in Render(env, index, upper, Charts(true, true)).value.visible <==> r in env.records && r.time <= env.steps[index]
    ensures Render(env, index, upper, Charts(true, true)).value.counts == Some(TitularCounts(Shown(env, index), upper))
    ensures Render(env, index, upper, Charts(true, true)).value.budget.Some?
    ensures Render(env, index, upper, Charts(true, true)).value.budget.value.kpi == TotalUpTo(events, env.steps[index])
  {
    VisibleMember(env.records, StepTime(env, index), r);
    KpiIsTotalUpTo(env.steps, events, index);
  }
}

=== FILE: sorting.dfy ===
/** Stable sorting by an integer key: what `Array.prototype.sort` does with
    the comparator `(a, b) => key(a) - key(b)`, which keeps elements with
    equal keys in their original order. */
module Sorting {
  import opened Options

  predicate SortedBy<T>(s: seq<T>, key: T -> int) {
    forall i, j :: 0 <= i < j < |s| ==> key(s[i]) <= key(s[j])
  }

  /** The elements of `s` whose key is `k`, in their order in `s`. */
  function WithKey<T>(s: seq<T>, key: T -> int, k: int): seq<T> {
    if |s| == 0 then []
    else (if key(s[0]) == k then [s[0]] else []) + WithKey(s[1..], key, k)
  }

  /** Places `x` in front of the first element whose key is not smaller. */
  function Insert<T>(x: T, s: seq<T>, key: T -> int): (r: seq<T>)
    ensures |r| == |s| + 1
    ensures multiset(r) == multiset(s) + multiset{x}
    ensures |s| > 0 ==> r[0] == x || r[0] == s[0]
  {
    if |s| == 0 || key(x) <= key(s[0]) then [x] + s
    else
      assert s == [s[0]] + s[1..];
      [s[0]] + Insert(x, s[1..], key)
  }

  /** Insertion sort from the back: each element goes in front of the
      already-sorted rest, before the elements with the same key. */
  function SortBy<T>(s: seq<T>, key: T -> int): (r: seq<T>)
    ensures |r| == |s|
    ensures multiset(r) == multiset(s)
  {
    if |s| == 0 then []
    else
      assert s == [s[0]] + s[1..];
      Insert(s[0], SortBy(s[1..], key), key)
  }

  lemma {:induction false} InsertSorted<T>(x: T, s: seq<T>, key: T -> int)
    requires SortedBy(s, key)
    ensures SortedBy(Insert(x, s, key), key)
    decreases |s|
  {
    if |s| > 0 && key(x) > key(s[0]) {
      InsertSorted(x, s[1..], key);
      var r := Insert(x, s[1..], key);
      assert key(r[0]) >= key(s[0]);
      assert forall i :: 0 <= i < |r| ==> r[i] in multiset(s[1..]) + multiset{x};
      assert forall i :: 0 <= i < |r| ==> key(r[i]) >= key(s[0]) by {
        forall i | 0 <= i < |r|
          ensures key(r[i]) >= key(s[0])
        {
          assert r[i] in multiset(s[1..]) + multiset{x};
          if r[i] != x {
            assert r[i] in multiset(s[1..]);
            assert r[i] in s[1..];
          }
        }
      }
    }
  }

  /** The result of `SortBy` is ordered by the key. */
  lemma {:induction false} SortBySorted<T>(s: seq<T>, key: T -> int)
    ensures SortedBy(SortBy(s, key), key)
    decreases |s|
  {
    if |s| > 0 {
      SortBySorted(s[1..], key);
      InsertSorted(s[0], SortBy(s[1..], key), key);
    }
  }

  lemma WithKeyCons<T>(a: T, r: seq<T>, key: T -> int, k: int)
    ensures WithKey([a] + r, key, k) == (if key(a) == k then [a] else []) + WithKey(r, key, k)
  {
    assert ([a] + r)[0] == a && ([a] + r)[1..] == r;
  }

  lemma {:induction false} InsertWithKey<T>(x: T, s: seq<T>, key: T -> int, k: int)
    requires SortedBy(s, key)
    ensures WithKey(Insert(x, s, key), key, k) == (if key(x) == k then [x] else []) + WithKey(s, key, k)
    decreases |s|
  {
    if |s| == 0 || key(x) <= key(s[0]) {
      WithKeyCons(x, s, key, k);
    } else {
      assert SortedBy(s[1..], key);
      InsertWithKey(x, s[1..], key, k);
      var rest := Insert(x, s[1..], key);
      var hx := if key(x) == k then [x] else [];
      var hs := if key(s[0]) == k then [s[0]] else [];
      WithKeyCons(s[0], rest, key, k);
      assert WithKey(Insert(x, s, key), key, k) == hs + (hx + WithKey(s[1..], key, k));
      assert hs == [] || hx == [];
      assert hs + (hx + WithKey(s[1..], key, k)) == hx + (hs + WithKey(s[1..], key, k));
    }
  }

  /** Stability: for every key, the elements carrying it appear in the
      sorted result in the same order as in the input. */
  lemma {:induction false} SortByStable<T>(s: seq<T>, key: T -> int, k: int)
    ensures WithKey(SortBy(s, key), key, k) == WithKey(s, key, k)
    decreases |s|
  {
    if |s| > 0 {
      SortBySorted(s[1..], key);
      InsertWithKey(s[0], SortBy(s[1..], key), key, k);
      SortByStable(s[1..], key, k);
    }
  }

  /** A sequence that is already ordered is left as it is. */
  lemma {:induction false} SortBySortedInput<T>(s: seq<T>, key: T -> int)
    requires SortedBy(s, key)
    ensures SortBy(s, key) == s
    decreases |s|
  {
    if |s| > 0 {
      assert SortedBy(s[1..], key);
      SortBySortedInput(s[1..], key);
      assert s == [s[0]] + s[1..];
    }
  }

  /** No two elements carry the same present tag. */
  predicate DistinctTags<T, U(==)>(s: seq<T>, tag: T -> Option<U>) {
    forall i, j :: 0 <= i < j < |s| && tag(s[i]).Some? ==> tag(s[i]) != tag(s[j])
  }

  lemma {:induction false} InsertDistinct<T, U>(x: T, s: seq<T>, key: T -> int, tag: T -> Option<U>)
    requires DistinctTags(s, tag)
    requires tag(x).Some? ==> forall y :: y in s ==> tag(y) != tag(x)
    ensures DistinctTags(Insert(x, s, key), tag)
    decreases |s|
  {
    if |s| > 0 && key(x) > key(s[0]) {
      assert DistinctTags(s[1..], tag);
      InsertDistinct(x, s[1..], key, tag);
      var r := Insert(x, s[1..], key);
      forall j | 0 <= j < |r| && tag(s[0]).Some?
        ensures tag(s[0]) != tag(r[j])
      {
        assert r[j] in multiset(s[1..]) + multiset{x};
        if r[j] != x {
          assert r[j] in s[1..];
          var k :| 1 <= k < |s| && s[k] == r[j];
        } else {
          assert s[0] in s;
        }
      }
      assert Insert(x, s, key) == [s[0]] + r;
    }
  }

  /** Sorting moves elements around but never duplicates one, so distinct
      tags stay distinct. */
  lemma {:induction false} SortByDistinct<T, U>(s: seq<T>, key: T -> int, tag: T -> Option<U>)
    requires DistinctTags(s, tag)
    ensures DistinctTags(SortBy(s, key), tag)
    decreases |s|
  {
    if |s| > 0 {
      assert DistinctTags(s[1..], tag);
      SortByDistinct(s[1..], key, tag);
      var rest := SortBy(s[1..], key);
      forall y | y in rest && tag(s[0]).Some?
        ensures tag(y) != tag(s[0])
      {
        assert y in multiset(s[1..]);
        var k :| 1 <= k < |s| && s[k] == y;
      }
      InsertDistinct(s[0], rest, key, tag);
    }
  }
}

=== FILE: text.dfy ===
/** String helpers with the semantics of the JavaScript string methods the
    playback engine relies on: `split` on a single character, `trim`,
    `includes`, `replace(/\./g, '')` and `replace(',', '.')`. */
module Text {

  /** JavaScript white space and line terminators, as `trim`, `parseInt`
      and string-to-number conversion skip them: tab, vertical tab, form
      feed, the byte order mark, line feed, carriage return, U+2028, U+2029
      and every Unicode space separator. */
  predicate IsSpace(c: char) {
    c == ' ' || c == '\t' || c == '\n' || c == '\r' || c == '\U{000B}' || c == '\U{000C}'
    || c == '\U{00A0}' || c == '\U{1680}' || ('\U{2000}' <= c <= '\U{200A}')
    || c == '\U{2028}' || c == '\U{2029}' || c == '\U{202F}' || c == '\U{205F}'
    || c == '\U{3000}' || c == '\U{FEFF}'
  }

  /** Number of occurrences of `c` in `s`. */
  function Count(s: string, c: char): nat {
    multiset(s)[c]
  }

  /** `s.split(sep)` for a one-character separator: the maximal separator-free
      pieces, in order, always at least one (possibly empty) piece. */
  function Split(s: string, sep: char): (parts: seq<string>)
    ensures |parts| >= 1
    decreases |s|
  {
    if |s| == 0 then [""]
    else
      var rest := Split(s[1..], sep);
      if s[0] == sep then [""] + rest
      else [[s[0]] + rest[0]] + rest[1..]
  }

  /** No piece contains the separator. */
  lemma {:induction false} SplitPiecesFree(s: string, sep: char)
    ensures forall i :: 0 <= i < |Split(s, sep)| ==> sep !in Split(s, sep)[i]
    decreases |s|
  {
    if |s| > 0 {
      SplitPiecesFree(s[1..], sep);
    }
  }

  /** The first piece is the text before the first separator. */
  lemma {:induction false} SplitFirstPiece(s: string, sep: char)
    ensures var h := Split(s, sep)[0];
      |h| <= |s| && s[..|h|] == h && (|h| < |s| ==> s[|h|] == sep)
    decreases |s|
  {
    if |s| > 0 {
      SplitFirstPiece(s[1..], sep);
    }
  }

  /** There is one more piece than there are separators. */
  lemma {:induction false} SplitCount(s: string, sep: char)
    ensures |Split(s, sep)| == Count(s, sep) + 1
    decreases |s|
  {
    if |s| > 0 {
      SplitCount(s[1..], sep);
      assert s == [s[0]] + s[1..];
    }
  }

  /** `parts.join(sep)`: the pieces with one separator between neighbours. */
  function Join(parts: seq<string>, sep: char): string {
    if |parts| == 0 then ""
    else if |parts| == 1 then parts[0]
    else parts[0] + [sep] + Join(parts[1..], sep)
  }

  /** Splitting loses nothing: joining the pieces back gives the input. */
  lemma {:induction false} JoinSplit(s: string, sep: char)
    ensures Join(Split(s, sep), sep) == s
    decreases |s|
  {
    if |s| > 0 {
      var rest := Split(s[1..], sep);
      JoinSplit(s[1..], sep);
      if s[0] == sep {
        JoinCons("", rest, sep);
      } else {
        JoinExtendHead(s[0], rest, sep);
      }
      assert s == [s[0]] + s[1..];
    }
  }

  lemma JoinCons(a: string, rest: seq<string>, sep: char)
    requires |rest| >= 1
    ensures Join([a] + rest, sep) == a + [sep] + Join(rest, sep)
  {
    assert ([a] + rest)[1..] == rest;
  }

  lemma JoinExtendHead(c: char, rest: seq<string>, sep: char)
    requires |rest| >= 1
    ensures Join([[c] + rest[0]] + rest[1..], sep) == [c] + Join(rest, sep)
  {
    var parts := [[c] + rest[0]] + rest[1..];
    if |rest| > 1 {
      assert parts[1..] == rest[1..];
      assert Join(rest, sep) == rest[0] + [sep] + Join(rest[1..], sep);
    }
  }

  /** A string without the separator is one piece. */
  lemma {:induction false} SplitWithoutSeparator(s: string, sep: char)
    requires sep !in s
    ensures Split(s, sep) == [s]
    decreases |s|
  {
    if |s| > 0 {
      assert sep !in s[1..];
      SplitWithoutSeparator(s[1..], sep);
      assert [s[0]] + s[1..] == s;
    }
  }

  /** A separator-free prefix followed by the separator becomes the first piece. */
  lemma {:induction false} SplitAfterPiece(a: string, sep: char, b: string)
    requires sep !in a
    ensures Split(a + [sep] + b, sep) == [a] + Split(b, sep)
    decreases |a|
  {
    var s := a + [sep] + b;
    if |a| == 0 {
      assert s[1..] == b;
    } else {
      assert s[1..] == a[1..] + [sep] + b;
      assert sep !in a[1..];
      SplitAfterPiece(a[1..], sep, b);
      assert [a[0]] + a[1..] == a;
    }
  }

  /** Joining separator-free pieces and splitting again gives the pieces back. */
  lemma {:induction false} SplitJoin(parts: seq<string>, sep: char)
    requires |parts| >= 1
    requires forall i :: 0 <= i < |parts| ==> sep !in parts[i]
    ensures Split(Join(parts, sep), sep) == parts
    decreases |parts|
  {
    if |parts| == 1 {
      SplitWithoutSeparator(parts[0], sep);
    } else {
      SplitJoin(parts[1..], sep);
      SplitAfterPiece(parts[0], sep, Join(parts[1..], sep));
      assert [parts[0]] + parts[1..] == parts;
    }
  }

  /** The text before the first `sep`, which is what destructuring
      `const [head] = s.split(sep)` binds. */
  function Head(s: string, sep: char): (h: string)
    ensures sep !in h
    ensures h == s || (|h| < |s| && s[..|h|] == h && s[|h|] == sep)
  {
    SplitPiecesFree(s, sep);
    SplitFirstPiece(s, sep);
    Split(s, sep)[0]
  }

  /** Index of the first `c` in `s`, or -1 (`indexOf`). */
  function IndexOf(s: string, c: char): (i: int)
    ensures -1 <= i < |s|
    ensures i == -1 <==> c !in s
    ensures 0 <= i ==> s[i] == c && c !in s[..i]
  {
    if |s| == 0 then -1
    else if s[0] == c then 0
    else
      var j := IndexOf(s[1..], c);
      assert s[1..][..j + 1] == s[..j + 2][1..] by { if 0 <= j { } }
      if j == -1 then -1 else j + 1
  }

  /** `s.replace(/c/g, '')`: every `c` removed, everything else kept in order. */
  function RemoveAll(s: string, c: char): (r: string)
    ensures c !in r
    ensures |r| <= |s|
    ensures c !in s ==> r == s
  {
    if |s| == 0 then ""
    else
      assert s == [s[0]] + s[1..];
      if s[0] == c then RemoveAll(s[1..], c)
      else [s[0]] + RemoveAll(s[1..], c)
  }

  /** Removal distributes over concatenation. */
  lemma {:induction false} RemoveAllAppend(a: string, b: string, c: char)
    ensures RemoveAll(a + b, c) == RemoveAll(a, c) + RemoveAll(b, c)
    decreases |a|
  {
    if |a| > 0 {
      assert (a + b)[1..] == a[1..] + b;
      RemoveAllAppend(a[1..], b, c);
    } else {
      assert a + b == b;
    }
  }

  /** `s.replace(c, d)` with a string pattern: only the FIRST `c` becomes `d`. */
  function ReplaceFirst(s: string, c: char, d: char): (r: string)
    ensures |r| == |s|
    ensures c !in s ==> r == s
  {
    if |s| == 0 then s
    else if s[0] == c then [d] + s[1..]
    else [s[0]] + ReplaceFirst(s[1..], c, d)
  }

  /** The first `c` is the one after a `c`-free prefix. */
  lemma {:induction false} ReplaceFirstAt(a: string, c: char, b: string, d: char)
    requires c !in a
    ensures ReplaceFirst(a + [c] + b, c, d) == a + [d] + b
    decreases |a|
  {
    var s := a + [c] + b;
    if |a| == 0 {
      assert s == [c] + b;
    } else {
      assert s[1..] == a[1..] + [c] + b;
      ReplaceFirstAt(a[1..], c, b, d);
      assert a == [a[0]] + a[1..];
    }
  }

  /** Replacing the first `c` changes that one position to `d`, and no `c`
      stands before it. */
  lemma ReplaceFirstIndex(s: string, c: char, d: char)
    requires c in s
    ensures var i := IndexOf(s, c);
            (forall j :: 0 <= j < i ==> s[j] != c)
            && forall j :: 0 <= j < |s| ==> ReplaceFirst(s, c, d)[j] == (if j == i then d else s[j])
  {
    var i := IndexOf(s, c);
    assert s == s[..i] + [c] + s[i + 1..];
    ReplaceFirstAt(s[..i], c, s[i + 1..], d);
    forall j | 0 <= j < i
      ensures s[j] != c
    {
      assert s[j] == s[..i][j];
    }
  }

  /** Removal keeps every other character, as often as it occurs. */
  lemma {:induction false} RemoveAllCounts(s: string, c: char)
    ensures multiset(RemoveAll(s, c)) == multiset(s)[c := 0]
    ensures |RemoveAll(s, c)| == |s| - Count(s, c)
    decreases |s|
  {
    if |s| > 0 {
      RemoveAllCounts(s[1..], c);
      assert s == [s[0]] + s[1..];
    }
  }

  /** Replacing the first `c` trades one `c` for one `d`. */
  lemma ReplaceFirstCounts(s: string, c: char, d: char)
    requires c in s
    ensures multiset(ReplaceFirst(s, c, d)) == multiset(s) - multiset{c} + multiset{d}
  {
    var i := IndexOf(s, c);
    var a, b := s[..i], s[i + 1..];
    assert s == a + [c] + b;
    ReplaceFirstAt(a, c, b, d);
  }

  /** `s.trimStart()`: drops exactly the leading white space. */
  function TrimStart(s: string): (r: string)
    ensures |r| <= |s| && s == s[..|s| - |r|] + r
    ensures forall i :: 0 <= i < |s| - |r| ==> IsSpace(s[i])
    ensures |r| == 0 || !IsSpace(r[0])
  {
    if |s| > 0 && IsSpace(s[0]) then TrimStart(s[1..]) else s
  }

  /** `s.trimEnd()`: drops exactly the trailing white space. */
  function TrimEnd(s: string): (r: string)
    ensures |r| <= |s| && r == s[..|r|]
    ensures forall i :: |r| <= i < |s| ==> IsSpace(s[i])
    ensures |r| == 0 || !IsSpace(r[|r| - 1])
  {
    if |s| > 0 && IsSpace(s[|s| - 1]) then TrimEnd(s[..|s| - 1]) else s
  }

  /** `s.trim()`. */
  function Trim(s: string): string {
    TrimEnd(TrimStart(s))
  }

  /** A string made only of white space trims to the empty string, and
      only such a string does. */
  lemma TrimAllSpace(s: string)
    ensures Trim(s) == "" <==> forall i :: 0 <= i < |s| ==> IsSpace(s[i])
  {
    if forall i :: 0 <= i < |s| ==> IsSpace(s[i]) {
      TrimStartAllSpace(s);
    }
  }

  /** Leading white space that runs to the end leaves nothing. */
  lemma {:induction false} TrimStartAllSpace(s: string)
    requires forall i :: 0 <= i < |s| ==> IsSpace(s[i])
    ensures TrimStart(s) == ""
    decreases |s|
  {
    if |s| > 0 {
      TrimStartAllSpace(s[1..]);
    }
  }

  /** A string that neither starts nor ends with white space is its own trim. */
  lemma TrimUntouched(s: string)
    requires |s| == 0 || (!IsSpace(s[0]) && !IsSpace(s[|s| - 1]))
    ensures Trim(s) == s
  {
  }
}

=== FILE: timeline.dfy ===
/** `generateMonthlySteps` and the time range `initApp` gives it: one step
    per month, at midnight of the first day, from the month of the start
    through the month after the end. */
module Timeline {
  import opened Options
  import opened Calendar

  /** A number stored in a Date: NaN (`None`) beyond `MaxTime` in magnitude. */
  function TimeClip(t: int): (r: Option<int>)
    ensures r.Some? <==> -MaxTime <= t <= MaxTime
    ensures r.Some? ==> r.value == t
  {
    if -MaxTime <= t <= MaxTime then Some(t) else None
  }

  /** `new Date(minTimestamp)` after `setDate(1)` and `setHours(0, 0, 0, 0)`. */
  function FirstStep(minT: Option<int>): Option<int> {
    if minT.None? || TimeClip(minT.value).None? then None
    else TimeClip(MonthStart(MonthOf(minT.value)))
  }

  /** `new Date(maxTimestamp)` after `setDate(1)` and then
      `setMonth(getMonth() + 1)`: the first of the following month, at the
      time of day of `maxTimestamp`. Each step can leave the Date range. */
  function EndStep(maxT: Option<int>): Option<int> {
    if maxT.None? || TimeClip(maxT.value).None? then None
    else
      var k := MonthOf(maxT.value);
      var tod := TimeInDay(maxT.value);
      if TimeClip(MonthStart(k) + tod).None? then None
      else TimeClip(MonthStart(k + 1) + tod)
  }

  /** `n` consecutive month starts from month `k0`. */
  function MonthStarts(k0: int, n: nat): (r: seq<int>)
    ensures |r| == n
    ensures forall i :: 0 <= i < n ==> r[i] == MonthStart(k0 + i)
  {
    seq(n, i => MonthStart(k0 + i))
  }

  /** What `generateMonthlySteps(minTimestamp, maxTimestamp)` returns, in
      closed form: the month starts from the month of `minTimestamp`
      through the month after that of `maxTimestamp`. */
  function MonthlySteps(minT: Option<int>, maxT: Option<int>): seq<int> {
    if FirstStep(minT).None? || EndStep(maxT).None? then []
    else
      var k0 := MonthOf(minT.value);
      var kEnd := MonthOf(maxT.value) + 1;
      MonthStarts(k0, if kEnd + 1 - k0 < 0 then 0 else kEnd + 1 - k0)
  }

  /** A month start reaches the end bound exactly up to the end month. */
  lemma StartBeforeEnd(k: int, kEnd: int, tod: int)
    requires 0 <= tod < MsPerDay
    ensures MonthStart(k) <= MonthStart(kEnd) + tod <==> k <= kEnd
  {
    if k > kEnd {
      MonthStartOrder(kEnd, k);
    } else if k < kEnd {
      MonthStartOrder(k, kEnd);
    }
  }

  lemma MonthStartsSnoc(k0: int, n: nat)
    ensures MonthStarts(k0, n + 1) == MonthStarts(k0, n) + [MonthStart(k0 + n)]
  {
  }

  /** One more month start is taken while it does not pass the end. */
  lemma LoopStep(k0: int, kEnd: int, tod: int, k: int, end: int)
    requires 0 <= tod < MsPerDay && end == MonthStart(kEnd) + tod
    requires k0 <= k && MonthStart(k) <= end
    ensures k <= kEnd
    ensures MonthOf(MonthStart(k)) + 1 == k + 1
  {
    StartBeforeEnd(k, kEnd, tod);
    MonthOfMonthStart(k);
  }

  /** The loop stops at the month after the end month, or at once when
      the start is already past it. */
  lemma LoopExit(k0: int, kEnd: int, tod: int, k: int, end: int)
    requires 0 <= tod < MsPerDay && end == MonthStart(kEnd) + tod && end <= MaxTime
    requires -MaxTime <= MonthStart(k0) && k0 <= k
    requires k0 <= kEnd + 1 ==> k <= kEnd + 1
    requires k0 > kEnd + 1 ==> k == k0
    requires !(TimeClip(MonthStart(k)).Some? && MonthStart(k) <= end)
    ensures k == if k0 <= kEnd + 1 then kEnd + 1 else k0
  {
    StartBeforeEnd(k, kEnd, tod);
    if k <= kEnd {
      if k0 < k {
        MonthStartOrder(k0, k);
      }
      assert false;
    }
  }

  /** `generateMonthlySteps`: the `while (currentDate <= endDate)` loop,
      advancing `currentDate` with `setMonth(getMonth() + 1)`. */
  method GenerateMonthlySteps(minT: Option<int>, maxT: Option<int>) returns (steps: seq<int>)
    ensures steps == MonthlySteps(minT, maxT)
  {
    steps := [];
    var current := FirstStep(minT);
    var end := EndStep(maxT);
    if current.None? || end.None? {
      return;
    }
    var k0 := MonthOf(minT.value);
    var kEnd := MonthOf(maxT.value) + 1;
    var tod := TimeInDay(maxT.value);
    assert end.value == MonthStart(kEnd) + tod;
    var k := k0;
    while current.Some? && current.value <= end.value
      invariant k0 <= k && (k0 <= kEnd + 1 ==> k <= kEnd + 1) && (k0 > kEnd + 1 ==> k == k0)
      invariant current == TimeClip(MonthStart(k))
      invariant steps == MonthStarts(k0, k - k0)
      decreases kEnd + 1 - k
    {
      LoopStep(k0, kEnd, tod, k, end.value);
      MonthStartsSnoc(k0, k - k0);
      steps := steps + [current.value];
      current := TimeClip(MonthStart(MonthOf(current.value) + 1));
      k := k + 1;
    }
    LoopExit(k0, kEnd, tod, k, end.value);
  }

  /** The steps rise by exactly one calendar month each, every one at
      midnight of a first day. */
  lemma StepsRiseByMonth(minT: Option<int>, maxT: Option<int>, i: int)
    requires 0 <= i < |MonthlySteps(minT, maxT)|
    ensures MonthOf(MonthlySteps(minT, maxT)[i]) == MonthOf(minT.value) + i
    ensures MonthlySteps(minT, maxT)[i] == MonthStart(MonthOf(MonthlySteps(minT, maxT)[i]))
    ensures i + 1 < |MonthlySteps(minT, maxT)| ==>
              MonthlySteps(minT, maxT)[i] < MonthlySteps(minT, maxT)[i + 1]
  {
    var k := MonthOf(minT.value) + i;
    MonthOfMonthStart(k);
    if i + 1 < |MonthlySteps(minT, maxT)| {
      MonthStartOrder(k, k + 1);
    }
  }

  /** Steps are strictly increasing. */
  lemma StepsIncreasing(minT: Option<int>, maxT: Option<int>, i: int, j: int)
    requires 0 <= i < j < |MonthlySteps(minT, maxT)|
    ensures MonthlySteps(minT, maxT)[i] < MonthlySteps(minT, maxT)[j]
  {
    MonthStartOrder(MonthOf(minT.value) + i, MonthOf(minT.value) + j);
  }

  /** The first step is the first of `minTimestamp`'s month; the last is the
      first of the month after `maxTimestamp`'s month, so there are two more
      steps than whole months between them. */
  lemma StepsEnds(minT: Option<int>, maxT: Option<int>)
    requires FirstStep(minT).Some? && EndStep(maxT).Some?
    requires minT.value <= maxT.value
    ensures |MonthlySteps(minT, maxT)| == MonthOf(maxT.value) - MonthOf(minT.value) + 2
    ensures MonthlySteps(minT, maxT)[0] == MonthStart(MonthOf(minT.value))
    ensures MonthStart(MonthOf(minT.value)) <= minT.value
    ensures MonthlySteps(minT, maxT)[|MonthlySteps(minT, maxT)| - 1] == MonthStart(MonthOf(maxT.value) + 1)
    ensures maxT.value < MonthlySteps(minT, maxT)[|MonthlySteps(minT, maxT)| - 1]
  {
    MonthOfMonotone(minT.value, maxT.value);
  }

  /** Month index of June 2017, `new Date(2017, 5, 1)`. */
  const ForcedStartMonth: int := 2017 * 12 + 5

  /** `minTime`: midnight of 1 June 2017. */
  function ForcedStart(): int {
    MonthStart(ForcedStartMonth)
  }

  lemma ForcedStartIsLocalDate()
    ensures LocalDate(2017, 5, 1) == Some(ForcedStart())
    ensures MonthOf(ForcedStart()) == ForcedStartMonth
    ensures TimeClip(ForcedStart()).Some?
  {
    MonthStartBounded(ForcedStartMonth);
    assert LocalDate(2017, 5, 1) == MonthDayTime(ForcedStartMonth, 1);
    MonthOfMonthStart(ForcedStartMonth);
  }

  /** `maxTime`: the latest timestamp, raised to `minTime` if earlier. */
  function ClampedEnd(latest: int): (t: int)
    ensures t >= ForcedStart() && t >= latest
    ensures t == latest || t == ForcedStart()
  {
    if latest < ForcedStart() then ForcedStart() else latest
  }

  /** The steps `initApp` builds from its latest timestamp: from June 2017
      through the month after the (clamped) latest one, always at least
      two of them. */
  lemma ClampedSteps(latest: int)
    requires -MaxTime <= latest <= MaxTime
    requires EndStep(Some(ClampedEnd(latest))).Some?
    ensures var s := MonthlySteps(Some(ForcedStart()), Some(ClampedEnd(latest)));
            |s| == MonthOf(ClampedEnd(latest)) - ForcedStartMonth + 2 && |s| >= 2
            && s[0] == ForcedStart()
            && s[|s| - 1] == MonthStart(MonthOf(ClampedEnd(latest)) + 1)
  {
    ForcedStartIsLocalDate();
    StepsEnds(Some(ForcedStart()), Some(ClampedEnd(latest)));
    MonthOfMonotone(ForcedStart(), ClampedEnd(latest));
  }

  /** A latest timestamp before June 2017 yields exactly June and July 2017. */
  lemma OldDataTwoSteps(latest: int)
    requires -MaxTime <= latest < ForcedStart()
    ensures MonthlySteps(Some(ForcedStart()), Some(ClampedEnd(latest)))
         == [MonthStart(ForcedStartMonth), MonthStart(ForcedStartMonth + 1)]
  {
    ForcedStartIsLocalDate();
    MonthStartBounded(ForcedStartMonth + 1);
    MonthStartBounded(ForcedStartMonth);
    assert TimeInDay(ForcedStart()) == 0;
  }

  /** NaN bounds give no steps. */
  lemma NaNBoundsNoSteps(minT: Option<int>, maxT: Option<int>)
    requires minT.None? || maxT.None?
    ensures MonthlySteps(minT, maxT) == []
  {
  }
}

=== FILE: visibility.dfy ===
/** The visibility filter of `updateMap`: the records whose timestamp is on
    or before the current step. */
module Visibility {
  import opened Options
  import opened Sorting
  import opened Ingest

  /** `features.filter(f => f.properties._timestamp <= currentSliderDate)`.
      `None` is the step of an index past the end (`undefined`), against
      which every comparison is false. */
  function Visible(records: seq<Record>, t: Option<int>): (v: seq<Record>)
    ensures |v| <= |records|
  {
    if |records| == 0 then []
    else (if t.Some? && records[0].time <= t.value then [records[0]] else []) + Visible(records[1..], t)
  }

  /** A record is visible exactly when its timestamp is on or before the step. */
  lemma {:induction false} VisibleMember(records: seq<Record>, t: Option<int>, r: Record)
    ensures r in Visible(records, t) <==> r in records && t.Some? && r.time <= t.value
    decreases |records|
  {
    if |records| > 0 {
      VisibleMember(records[1..], t, r);
      assert records == [records[0]] + records[1..];
    }
  }

  /** Moving the step forward never hides a record. */
  lemma VisibleGrows(records: seq<Record>, t1: int, t2: int, r: Record)
    requires t1 <= t2 && r in Visible(records, Some(t1))
    ensures r in Visible(records, Some(t2))
  {
    VisibleMember(records, Some(t1), r);
    VisibleMember(records, Some(t2), r);
  }

  /** With records in timestamp order, the visible ones are a prefix. */
  lemma {:induction false} VisiblePrefix(records: seq<Record>, t: int)
    requires SortedBy(records, RecordTime)
    ensures Visible(records, Some(t)) == records[..|Visible(records, Some(t))|]
    ensures forall k :: |Visible(records, Some(t))| <= k < |records| ==> records[k].time > t
    decreases |records|
  {
    if |records| > 0 {
      assert SortedBy(records[1..], RecordTime);
      VisiblePrefix(records[1..], t);
      if records[0].time > t {
        assert Visible(records[1..], Some(t)) == [] by {
          if |Visible(records[1..], Some(t))| > 0 {
            assert Visible(records[1..], Some(t))[0] == records[1];
            VisibleMember(records[1..], Some(t), records[1]);
          }
        }
      }
    }
  }

  /** So, for ordered records, an earlier step shows a prefix of what a
      later step shows. */
  lemma VisiblePrefixGrows(records: seq<Record>, t1: int, t2: int)
    requires SortedBy(records, RecordTime) && t1 <= t2
    ensures |Visible(records, Some(t1))| <= |Visible(records, Some(t2))|
    ensures Visible(records, Some(t1)) == Visible(records, Some(t2))[..|Visible(records, Some(t1))|]
  {
    VisiblePrefix(records, t1);
    VisiblePrefix(records, t2);
    var n1, n2 := |Visible(records, Some(t1))|, |Visible(records, Some(t2))|;
    if n2 < n1 {
      assert records[n2] in Visible(records, Some(t1));
      VisibleMember(records, Some(t1), records[n2]);
    }
  }

  /** Past the last step nothing is visible. */
  lemma {:induction false} NothingVisibleWithoutStep(records: seq<Record>)
    ensures Visible(records, None) == []
    decreases |records|
  {
    if |records| > 0 {
      NothingVisibleWithoutStep(records[1..]);
    }
  }
}
